=== FILE: README.md ===
# SwiftSerial in Dafny

A model of the core of SwiftSerial, a Swift library that opens a serial
device, configures its line settings through the POSIX terminal interface,
and reads and writes bytes. The model covers:

- the **settings transform** inside `SerialPort.open`: the `termios` record
  read from the device becomes the record committed back, with the speeds,
  the four mode words (`c_iflag`, `c_oflag`, `c_cflag`, `c_lflag`) and a
  fresh special-character table `c_cc` (`port_settings.dfy`);
- the **port handle**: the optional file descriptor, access-mode selection,
  the flags handed to `open()`, `open`, `close`, the raw read with its
  `portIsClosed`/`deviceNotConnected` guards, `readByte`, `readBytes(count:)`
  and both `writeBytes` overloads (`serial_port.dfy`);
- the **`readBytesBlocking` loop**, as a recursive function and as a method
  with a loop invariant (`blocking_read.dfy`);
- the **lookup enums** `BaudRate.speedValue`, `Parity.parityValue`,
  `DataBits` (raw values and `flagValue`), `StopBits` and `SerialError` (raw
  values) (`baud_rate.dfy`, `parity.dfy`, `data_bits.dfy`, `stop_bits.dfy`,
  `serial_error.dfy`);
- the slice of the POSIX General Terminal Interface the library touches
  (chapter 11 of the POSIX.1 Base Definitions): mode bits, the two `c_cc`
  layouts and the `open()` flags, with the values of the Linux and Darwin
  headers (`termios.dfy`). The library only names these constants; their
  values come from the platform headers.

The library compiles one branch per platform (`#if os(Linux)` /
`#elseif os(OSX)`); the model takes a `Platform` argument (`Linux` or
`Darwin`) instead. Mode words are `bv32`. Every system call becomes an input
standing for what it returned: `OpenOracle` for `open()` and `tcgetattr()`,
`ReadReply` for `fstat()`'s link count and what `read()` finds, `OsWrite` for
`write()`. `Open` and `Close` return traces recording the new handle and what
was handed to the system. The clock of `readBytesBlocking` becomes a
sequence of `Poll`s, each saying whether the deadline check still passes and
how the device answers the next read; when the sequence runs out, time is up.

To state read-back properties, `PortSettings.Observe` reads the line settings
back out of a record (rate codes decoded by `BaudRates.FromSpeedValue`,
parity by `ParityFlags.ParityOf`, data bits by `DataBitsFlags.DataBitsOf`, MIN
and TIME by slot name). These readers are the independent partner of the
transform.

Two behaviours of the transform are worth knowing:

- Parity bits are only ever OR-ed in, never cleared. A device whose saved
  settings select odd parity stays odd whatever parity is requested
  (`PortSettings.OddParitySurvives`). Exactly: the requested parity reads
  back unless none was requested over a set PARENB bit, or even parity was
  requested over a set PARODD bit (`PortSettings.ParityAppliedExactly`).
- `open` overwrites a descriptor the handle already holds without closing
  it (`SerialPort.Open`).

## Model

| member | source | states |
|---|---|---|
| SerialErrors.RawValue | Sources/SwiftSerial/SerialError.swift:6-33 | raw values lie in -1..2, only `failedToOpen` has -1, each case's raw value is its position in declaration order minus one (so 0, 1, 2 for the implicit cases), and the raw-value initialiser maps each raw value back to its case |
| SerialErrors.ErrorsCountOn | Sources/SwiftSerial/SerialError.swift:13-32 | each case's raw value is one more than that of the case declared before it |
| SerialErrors.FromRawValue | Sources/SwiftSerial/SerialError.swift:6 | the raw-value initialiser succeeds exactly for -1..2 |
| SerialErrors.RawValueInjective | Sources/SwiftSerial/SerialError.swift:13-32 | no two error cases share a raw value |
| SerialErrors.FromRawValueRoundTrip | Sources/SwiftSerial/SerialError.swift:6-33 | a case decoded from a raw value has that raw value |
| ParityFlags.ParityValueInside | Sources/SwiftSerial/Parity.swift:15-24 | `ParityValue` (`parityValue`): every parity value uses only the PARENB and PARODD bits |
| ParityFlags.ParityRoundTrip | Sources/SwiftSerial/Parity.swift:15-24 | `ParityValue`: PARENB is set exactly for even and odd, PARODD exactly for odd, so none sets neither bit; reading PARENB/PARODD back gives the parity |
| ParityFlags.ParityValueInjective | Sources/SwiftSerial/Parity.swift:15-24 | the three parities have pairwise distinct values |
| ParityFlags.OddWhenMaskFull | Sources/SwiftSerial/Parity.swift:21-22 | a word with both parity bits set selects odd parity |
| DataBitsFlags.RawValue | Sources/SwiftSerial/DataBits.swift:4-16 | the raw value is the number of data bits: the cases in declaration order carry 5, 6, 7, 8, and each decodes back to its case |
| DataBitsFlags.FromRawValue | Sources/SwiftSerial/DataBits.swift:4 | the raw-value initialiser succeeds exactly for 5..8 |
| DataBitsFlags.FlagValueWithinSize | Sources/SwiftSerial/DataBits.swift:18-29 | `FlagValue` (`flagValue`): every `CSn` value lies inside the CSIZE field |
| DataBitsFlags.DataBitsRoundTrip | Sources/SwiftSerial/DataBits.swift:18-29 | the size read from a flag value is the size it came from |
| DataBitsFlags.DataBitsReadBack | Sources/SwiftSerial/DataBits.swift:18-29 | any word whose CSIZE field equals a size's flag value reads back as that size |
| DataBitsFlags.FlagValueFollowsBits | Sources/SwiftSerial/DataBits.swift:18-29 | the flag value of n data bits is (n - 5) times CS6, so CS5, CS6, CS7, CS8 go to five, six, seven, eight bits in that order |
| DataBitsFlags.FlagValueInjective | Sources/SwiftSerial/DataBits.swift:18-29 | no two sizes share a flag value |
| DataBitsFlags.CsizeFieldCovered | Sources/SwiftSerial/DataBits.swift:18-29 | every value of the CSIZE field is the flag value of some size |
| BaudRates.AllRatesLayout | Sources/SwiftSerial/Baudrate.swift:6-98 | there are 30 rates in declaration order, and the Linux-only ones are exactly the last eleven |
| BaudRates.LinuxOnlyAbove230400 | Sources/SwiftSerial/Baudrate.swift:64-98 | a rate is Linux-only exactly when it is above 230400 baud |
| BaudRates.RankIndexes | Sources/SwiftSerial/Baudrate.swift:6-98 | `Rank` (a case's position in declaration order) indexes the declaration-order list of rates at that very case |
| BaudRates.SpeedValue | Sources/SwiftSerial/Baudrate.swift:100-165 | defined for the rates that exist on the platform; on Darwin the code is the rate itself; on Linux the code of a rate up to 38400 is its position in declaration order (0 to 15), and the code of a faster rate is CBAUDEX plus its position among the faster rates counted from 1, where the header's B3000000, which has no case, takes one position (so 3500000 and 4000000 get 0x100e and 0x100f) |
| BaudRates.CodesAscend | Sources/SwiftSerial/Baudrate.swift:100-165 | on either platform a faster rate has a larger code |
| BaudRates.RankFollowsNominal | Sources/SwiftSerial/Baudrate.swift:6-98 | the cases are declared in ascending order of rate |
| BaudRates.FromSpeedValue | Sources/SwiftSerial/Baudrate.swift:100-165 | a code decodes only to a rate that exists on the platform |
| BaudRates.SpeedRoundTrip | Sources/SwiftSerial/Baudrate.swift:100-165 | decoding a rate's code gives the rate back |
| BaudRates.SpeedValueInjective | Sources/SwiftSerial/Baudrate.swift:102-162 | no two rates share a code on the same platform |
| BaudRates.FromSpeedValueSound | Sources/SwiftSerial/Baudrate.swift:100-165 | a code that decodes to a rate is that rate's code |
| Termios.LayoutToIndex | Sources/SwiftSerial/SerialPort.swift:140-145 | the table has NCCS slots (32 on Linux, 20 on Darwin), and the slot named at each position of the tuple sits at that index |
| Termios.IndexToLayout | Sources/SwiftSerial/SerialPort.swift:140-145 | every slot name the platform has sits at its index in the tuple |
| Termios.ReadTimingSlots | Sources/SwiftSerial/SerialPort.swift:140-145 | VTIME and VMIN sit at 5 and 6 on Linux, VMIN and VTIME at 16 and 17 on Darwin |
| PortSettings.ControlFlagsSpec | Sources/SwiftSerial/SerialPort.swift:81-125 | `ControlFlags`, the `c_cflag` steps: parity bits are the old ones OR the parity value, CSTOPB is set iff two stop bits, CSIZE equals the size's flag value, the hardware flow bits are all set or all clear with the toggle, CREAD and CLOCAL are set, and every other bit is unchanged |
| PortSettings.ControlParity | Sources/SwiftSerial/SerialPort.swift:82 | the parity bits of the result are the old parity bits OR the parity value; none is cleared |
| PortSettings.ControlStopBits | Sources/SwiftSerial/SerialPort.swift:84-90 | CSTOPB is set exactly for two stop bits |
| PortSettings.ControlSize | Sources/SwiftSerial/SerialPort.swift:92-94 | the CSIZE field equals the requested size's flag value |
| PortSettings.ControlHardwareFlow | Sources/SwiftSerial/SerialPort.swift:99-114 | the hardware flow bits are all set when the toggle is on and all clear when it is off |
| PortSettings.ControlReceiver | Sources/SwiftSerial/SerialPort.swift:124-125 | CREAD and CLOCAL are always set |
| PortSettings.ParityStepKeepsOutside | Sources/SwiftSerial/SerialPort.swift:82 | `ParityStep` changes no bit outside PARENB and PARODD |
| PortSettings.StopStepKeepsOutside | Sources/SwiftSerial/SerialPort.swift:84-90 | `StopStep` changes no bit other than CSTOPB |
| PortSettings.SizeStepKeepsOutside | Sources/SwiftSerial/SerialPort.swift:92-94 | `SizeStep` changes no bit outside the CSIZE field |
| PortSettings.ReceiverStepKeepsOutside | Sources/SwiftSerial/SerialPort.swift:124-125 | `ReceiverStep` changes no bit other than CREAD and CLOCAL |
| PortSettings.StopStepKeepsParity | Sources/SwiftSerial/SerialPort.swift:84-90 | `StopStep` leaves the parity bits as they were |
| PortSettings.SizeStepKeepsParity | Sources/SwiftSerial/SerialPort.swift:92-94 | `SizeStep` leaves the parity bits as they were |
| PortSettings.HardwareFlowKeepsParity | Sources/SwiftSerial/SerialPort.swift:99-114 | `HardwareFlowStep` leaves the parity bits as they were |
| PortSettings.ReceiverStepKeepsParity | Sources/SwiftSerial/SerialPort.swift:124-125 | `ReceiverStep` leaves the parity bits as they were |
| PortSettings.ControlFrame | Sources/SwiftSerial/SerialPort.swift:81-125 | every `c_cflag` bit outside the parity, stop, size, flow and receiver bits keeps its value |
| PortSettings.HardwareFlowKeepsOutside | Sources/SwiftSerial/SerialPort.swift:99-114 | `HardwareFlowStep` changes no bit outside CRTSCTS (Linux) or CRTS_IFLOW and CCTS_OFLOW (Darwin) |
| PortSettings.InputFlagsSpec | Sources/SwiftSerial/SerialPort.swift:96-122 | `InputFlags`, the `c_iflag` steps: ICRNL, INLCR and IGNCR are clear, IXON, IXOFF and IXANY are all set or all clear with the toggle, and every other bit is unchanged |
| PortSettings.InputSoftwareFlow | Sources/SwiftSerial/SerialPort.swift:116-122 | the software flow bits are all set when the toggle is on and all clear when it is off |
| PortSettings.InputFrame | Sources/SwiftSerial/SerialPort.swift:96-122 | every `c_iflag` bit outside the mapping and software flow bits keeps its value |
| PortSettings.LocalFlagsSpec | Sources/SwiftSerial/SerialPort.swift:127-128 | `LocalFlags`: ICANON, ECHO, ECHOE and ISIG are clear and every other `c_lflag` bit is unchanged |
| PortSettings.OutputFlagsSpec | Sources/SwiftSerial/SerialPort.swift:130-135 | `OutputFlags`: OPOST is set exactly when output processing is requested, and every other `c_oflag` bit is unchanged |
| PortSettings.SpecialCharacters | Sources/SwiftSerial/SerialPort.swift:137-151 | the new table has NCCS slots and holds MIN at VMIN's position, TIME at VTIME's and zero everywhere else, whatever the old table held |
| PortSettings.SpecialCharactersByName | Sources/SwiftSerial/SerialPort.swift:149-150 | read by name, every slot the platform has holds MIN, TIME or zero |
| PortSettings.ApplySettings | Sources/SwiftSerial/SerialPort.swift:73-79 | the input speed becomes the receive rate's code only when a receive rate is given, the output speed likewise for the transmit rate, otherwise the old speed is kept; the table has NCCS slots |
| PortSettings.SettingsRoundTrip | Sources/SwiftSerial/SerialPort.swift:68-151 | the committed record reads back as the request: each given rate, stop bits, data bits, both flow toggles, output processing, MIN and TIME; no CR/NL mapping, receiver on, raw input; parity when the old record had none or odd was requested |
| PortSettings.RatesRoundTrip | Sources/SwiftSerial/SerialPort.swift:73-79 | each given rate reads back from the committed speed |
| PortSettings.ControlSettingsRoundTrip | Sources/SwiftSerial/SerialPort.swift:81-125 | stop bits, data bits and receiver read back from `c_cflag`, and parity under the proviso above |
| PortSettings.HardwareFlowRoundTrip | Sources/SwiftSerial/SerialPort.swift:99-114 | the hardware flow toggle reads back from `c_cflag` |
| PortSettings.ModeSettingsRoundTrip | Sources/SwiftSerial/SerialPort.swift:96-135 | software flow and output processing read back, no CR/NL mapping is on, and input is raw |
| PortSettings.MinimumBytesRoundTrip | Sources/SwiftSerial/SerialPort.swift:149 | MIN reads back from the VMIN slot |
| PortSettings.TimeoutRoundTrip | Sources/SwiftSerial/SerialPort.swift:150 | TIME reads back from the VTIME slot |
| PortSettings.ControlReadBack | Sources/SwiftSerial/SerialPort.swift:81-125 | the `c_cflag` settings read back from the transformed word |
| PortSettings.InputReadBack | Sources/SwiftSerial/SerialPort.swift:96-122 | no CR/NL mapping reads back, and the software flow toggle reads back |
| PortSettings.ParityReadBack | Sources/SwiftSerial/SerialPort.swift:82 | after OR-ing a parity value in, the parity reads back as requested when the old word had no parity bits or odd was requested |
| PortSettings.ParityStaysOdd | Sources/SwiftSerial/SerialPort.swift:82 | a word that had both parity bits keeps selecting odd parity after any parity value is OR-ed in |
| PortSettings.ParityReadBackExactly | Sources/SwiftSerial/SerialPort.swift:82 | after OR-ing a parity value into an old word, the parity reads back as requested if and only if it is not the case that none was requested while PARENB was already set, or that even was requested while PARODD was already set |
| PortSettings.ControlParityExactly | Sources/SwiftSerial/SerialPort.swift:81-125 | the whole `c_cflag` transform leaves the requested parity if and only if the old word's PARENB/PARODD bits do not contradict it |
| PortSettings.ParityAppliedExactly | Sources/SwiftSerial/SerialPort.swift:82 | the record the settings step builds, which `open` commits, selects the requested parity if and only if the saved record's parity bits do not contradict it |
| PortSettings.OddParityControl | Sources/SwiftSerial/SerialPort.swift:81-125 | the whole `c_cflag` transform keeps odd parity |
| PortSettings.OddParitySurvives | Sources/SwiftSerial/SerialPort.swift:82 | a device whose saved settings select odd parity still selects odd parity after `open`, whatever parity was requested |
| PortSettings.ApplySettingsIdempotent | Sources/SwiftSerial/SerialPort.swift:68-151 | applying the same configuration twice gives the same record as once |
| PortSettings.ControlIdempotent | Sources/SwiftSerial/SerialPort.swift:81-125 | the `c_cflag` transform applied twice equals it applied once |
| PortSettings.InputIdempotent | Sources/SwiftSerial/SerialPort.swift:96-122 | the `c_iflag` transform applied twice equals it applied once |
| PortSettings.OutputIdempotent | Sources/SwiftSerial/SerialPort.swift:130-135 | the `c_oflag` transform applied twice equals it applied once |
| SerialPort.NewHandle | Sources/SwiftSerial/SerialPort.swift:19-21 | a new port has the given path and no descriptor |
| SerialPort.SelectAccessMode | Sources/SwiftSerial/SerialPort.swift:47-57 | fails with `mustReceiveOrTransmit` exactly when neither rate is given; otherwise the mode reads exactly when a receive rate is given and writes exactly when a transmit rate is given |
| SerialPort.AccessModeOf | Sources/SwiftSerial/SerialPort.swift:47-57 | a flag word names an access mode unless its access-mode field is the unused value |
| SerialPort.OpenFlagsSpec | Sources/SwiftSerial/SerialPort.swift:276-282 | `OpenFlags` (`openPort`): the `open()` flags carry the chosen access mode and O_NOCTTY, O_EXLOCK exactly on Darwin, and no other flag |
| SerialPort.Open | Sources/SwiftSerial/SerialPort.swift:36-155 | without a rate it throws `mustReceiveOrTransmit` and changes nothing; when `open()` returns -1 it throws `failedToOpen`, drops the descriptor and commits nothing; `open()` is called with the flags `openPort` builds for the selected access mode; otherwise it stores the new descriptor, replacing any old one, and commits exactly the transformed settings (`ApplySettings`) of the record `tcgetattr` returned; the path never changes |
| SerialPort.OpenRequestsDirections | Sources/SwiftSerial/SerialPort.swift:47-59 | `open()` is asked to read exactly when a receive rate is given, to write exactly when a transmit rate is given, and never to become the controlling terminal |
| SerialPort.OpenRequestsNothingElse | Sources/SwiftSerial/SerialPort.swift:276-282 | the `open()` call made by `open` asks for the exclusive lock exactly on Darwin and for no flag beyond the access mode, O_NOCTTY and that lock |
| SerialPort.OpenCommitsSettings | Sources/SwiftSerial/SerialPort.swift:67-154 | a successful `open` commits a record that reads back as the requested settings: each given rate, stop bits, data bits, both flow toggles, output processing, MIN and TIME, no CR/NL mapping, receiver on, raw input; parity when the device's saved record had no parity bits or odd was requested |
| SerialPort.DefaultOpenCommitsRaw8N1 | Sources/SwiftSerial/SerialPort.swift:36-45 | `DefaultConfig`, the defaults of `open`: an `open` given only rates commits eight data bits, one stop bit, no hardware or software flow control, no output processing, raw input, MIN 1 and TIME 0, and no parity when the saved record had none |
| SerialPort.Close | Sources/SwiftSerial/SerialPort.swift:160-166 | after `close` the port has no descriptor and the same path, and `close()` was called exactly on the descriptor held, if any |
| SerialPort.CloseIdempotent | Sources/SwiftSerial/SerialPort.swift:160-166 | closing a closed port changes nothing and makes no system call |
| SerialPort.OsReadReturn | Sources/SwiftSerial/SerialPort.swift:215 | read() returns -1 exactly on error, and otherwise at most the requested and at most the waiting number of bytes |
| SerialPort.RawRead | Sources/SwiftSerial/SerialPort.swift:204-217 | throws `portIsClosed` exactly when the port has no descriptor, `deviceNotConnected` exactly when the link count is not one, and otherwise delivers at most `count` bytes: a prefix of what was waiting, as much as fits, or nothing on a read error |
| SerialPort.ReadByteAsWritten | Sources/SwiftSerial/SerialPort.swift:177-184 | as written: fails exactly when the raw read fails, with the raw read's error; answers a byte exactly when read() delivered none, and that byte is the buffer's unwritten content |
| SerialPort.ReadByteLosesWaitingByte | Sources/SwiftSerial/SerialPort.swift:180-182 | as written, a byte that is waiting is consumed and the call answers "no byte" |
| SerialPort.ReadByteInventsByte | Sources/SwiftSerial/SerialPort.swift:180-183 | as written, with nothing waiting the call answers the buffer's unwritten content |
| SerialPort.ReadByte | Sources/SwiftSerial/SerialPort.swift:170-176 | as documented: the waiting byte, or no byte exactly when none is waiting; errors as for every read |
| SerialPort.ReadBytesAsWritten | Sources/SwiftSerial/SerialPort.swift:196-202 | as written: errors as for every read; on success the result is always empty |
| SerialPort.ReadBytesDropsDelivered | Sources/SwiftSerial/SerialPort.swift:197-201 | as written, three waiting bytes are read and an empty result is returned |
| SerialPort.ReadBytes | Sources/SwiftSerial/SerialPort.swift:186-195 | as documented: the waiting bytes up to `count`, nothing on a read error; errors as for every read |
| SerialPort.Prefix | Sources/SwiftSerial/SerialPort.swift:201 | `prefix(n)` gives the first `n` elements, or all when there are fewer |
| SerialPort.WriteBytes | Sources/SwiftSerial/SerialPort.swift:251-273 | throws `portIsClosed` exactly when the port has no descriptor, and otherwise returns write()'s result unchanged: the number of bytes write() accepted, or -1 on a write error |
| SerialPort.ClosedPortRefuses | Sources/SwiftSerial/SerialPort.swift:204-207 | after `close`, every read that reaches read() (`readByte`, `readBytes`, the as-written and corrected forms) and every write throws `portIsClosed`, whatever the device reports |
| SerialPort.OpenedPortServes | Sources/SwiftSerial/SerialPort.swift:209-215 | after a successful `open`, a read with any reply succeeds if and only if the link count is one and throws `deviceNotConnected` otherwise, and writes succeed |
| SerialPort.FailedOpenCloses | Sources/SwiftSerial/SerialPort.swift:59-65 | a failed `open()` leaves the port closed even if it was open before |
| BlockingRead.Splice | Sources/SwiftSerial/SerialPort.swift:236-238 | writing into the buffer at an offset keeps its length and every byte outside the written stretch |
| BlockingRead.Fill | Sources/SwiftSerial/SerialPort.swift:231-241 | the loop keeps the buffer at `count` bytes, never lowers or overshoots the received count, and leaves the bytes before the start and after the last received byte unchanged |
| BlockingRead.FillStoresCollected | Sources/SwiftSerial/SerialPort.swift:235-239 | the loop fails exactly when a read fails, with that error; otherwise the buffer holds exactly the delivered bytes, in order, right after those already received |
| BlockingRead.ReadBytesBlocking | Sources/SwiftSerial/SerialPort.swift:231-241 | the method computes what the loop computes, and its result always has `count` bytes |
| BlockingRead.ReadBytesBlockingIntended | Sources/SwiftSerial/SerialPort.swift:219-230 | as documented: the delivered bytes, at most `count`, fewer when time ran out |
| BlockingRead.BlockingResultIsCollectedThenZeros | Sources/SwiftSerial/SerialPort.swift:232-240 | the result is the delivered bytes followed by zeros up to `count` |
| BlockingRead.ShortReadIsPadded | Sources/SwiftSerial/SerialPort.swift:232-240 | 3 bytes delivered out of 10 requested give those 3 bytes and 7 zeros, where the documentation promises the 3 bytes |
| BlockingRead.EmptyRequestNeverFails | Sources/SwiftSerial/SerialPort.swift:235 | a request for zero bytes never reads and returns an empty buffer |
| BlockingRead.ClosedPortPastDeadline | Sources/SwiftSerial/SerialPort.swift:235 | when time is already up, even a closed port returns `count` zeros rather than `portIsClosed` |
| BlockingRead.ClosedPortInTime | Sources/SwiftSerial/SerialPort.swift:235-237 | a closed port given time to read throws `portIsClosed` |

## Findings

| source | as written | input that shows it | evidently intended | confidence | as-written member | corrected member |
|---|---|---|---|---|---|---|
| Sources/SwiftSerial/SerialPort.swift:180-183 | the guard answers `nil` when read() returned one byte, and answers the buffer's unwritten first byte when it returned none | an open, linked port with byte `b` waiting: the byte is consumed and the answer is "no byte" (`ReadByteLosesWaitingByte`); with nothing waiting the answer is an invented byte (`ReadByteInventsByte`) | answer the byte when one was read and `nil` when none was, as the doc comment at line 175 says | not executed; high | SerialPort.ReadByteAsWritten | SerialPort.ReadByte |
| Sources/SwiftSerial/SerialPort.swift:197-201 | the buffer is created with a capacity but no elements, so the prefix taken of it is always empty | an open, linked port with bytes 1, 2, 3 waiting and `count` 3: read() consumes them and the result is empty (`ReadBytesDropsDelivered`) | return the bytes read, up to `count`, as the doc comment at lines 187-195 says | not executed; medium | SerialPort.ReadBytesAsWritten | SerialPort.ReadBytes |
| Sources/SwiftSerial/SerialPort.swift:232-240 | the whole `count`-byte buffer is returned, zero-padded, when time runs out | 3 of 10 requested bytes delivered before the deadline: the result is 10 bytes, the last 7 zero (`ShortReadIsPadded`) | return only the received bytes, as the doc comment at lines 226-228 says | not executed; medium | BlockingRead.ReadBytesBlocking | BlockingRead.ReadBytesBlockingIntended |

The zero padding in the third row may be deliberate; the row records that the
code and its own doc comment disagree. The rest of the model keeps the code's
behaviour for `readBytesBlocking` and uses the corrected `ReadByte` and
`ReadBytes` where reads are combined with other operations.

## Left out

- System calls (`open`, `close`, `tcgetattr`, `tcsetattr`, `cfsetispeed`, `cfsetospeed`, `fstat`, `read`, `write`) are not modelled; their results are inputs to the operations, and the record `tcgetattr` returns is arbitrary.
- The ignored results of `tcgetattr`, `tcsetattr` and `close()`: nothing the library does depends on them.
- Actor isolation (`public actor SerialPort`) and concurrency: every operation is a pure function of the handle.
- The wall clock of `readBytesBlocking` (`Date`, a floating-point `TimeInterval`): replaced by the sequence of polls.
- Unsafe pointer allocation and `Data` internals beyond length and content.
- Package.swift, which is build metadata.
- Termios constants: the Linux values are the asm-generic ones (x86, ARM, RISC-V); MIPS, PowerPC, Alpha and SPARC number some of the flag bits and speed codes differently, and those architectures are not modelled.
- ApplySettings: requires MIN and TIME in 0..255, because `cc_t(...)` traps outside that range; the trap itself is not modelled. `Open` carries the same requirement for the configurations that reach the settings step.
- ApplySettings: Darwin's `tcflag_t` and `speed_t` are 64 bits wide; the model uses 32-bit words, which hold every bit the library touches.
- ApplySettings: the model sets only the speed fields; on Linux, glibc's `cfsetispeed`/`cfsetospeed` also write other bits of the record (the CBAUD bits of `c_cflag`, and an internal flag bit of `c_iflag`), so the frame lemmas `ControlFrame` and `InputFrame` describe the library's own steps, not every bit handed to `tcsetattr`.
- RawRead: counts are `nat`; a negative count makes the library trap (in `Data`), which is not modelled.
- WriteBytes: requires that write() accepts no more bytes than it was given, as POSIX guarantees.
- Fill: the loop runs for as many turns as the poll sequence has entries; a device that keeps delivering nothing while time remains is one poll per turn, and an unbounded spin is not modelled.

=== FILE: baud_rate.dfy ===
/** The baud rates a port can be opened with and the `speed_t` code each
    stands for. The nineteen rates up to 230400 exist on every platform; the
    eleven above it exist only on Linux. */
module BaudRates {
  import opened Wrappers
  import opened Termios

  datatype BaudRate =
    | Baud0 | Baud50 | Baud75 | Baud110 | Baud134 | Baud150 | Baud200 | Baud300
    | Baud600 | Baud1200 | Baud1800 | Baud2400 | Baud4800 | Baud9600
    | Baud19200 | Baud38400 | Baud57600 | Baud115200 | Baud230400
    // available on Linux only
    | Baud460800 | Baud500000 | Baud576000 | Baud921600 | Baud1000000
    | Baud1152000 | Baud1500000 | Baud2000000 | Baud2500000 | Baud3500000
    | Baud4000000

  /** Every rate, in declaration order (which is also ascending order). */
  const AllRates: seq<BaudRate> :=
    [Baud0, Baud50, Baud75, Baud110, Baud134, Baud150, Baud200, Baud300,
     Baud600, Baud1200, Baud1800, Baud2400, Baud4800, Baud9600, Baud19200,
     Baud38400, Baud57600, Baud115200, Baud230400, Baud460800, Baud500000,
     Baud576000, Baud921600, Baud1000000, Baud1152000, Baud1500000,
     Baud2000000, Baud2500000, Baud3500000, Baud4000000]

  /** The cases compiled only on Linux. */
  predicate LinuxOnly(b: BaudRate)
  {
    match b
    case Baud460800 | Baud500000 | Baud576000 | Baud921600 | Baud1000000
       | Baud1152000 | Baud1500000 | Baud2000000 | Baud2500000 | Baud3500000
       | Baud4000000 => true
    case _ => false
  }

  /** Whether the case exists when building for platform `p`. */
  predicate AvailableOn(b: BaudRate, p: Platform)
  {
    p == Linux || !LinuxOnly(b)
  }

  /** The rate in bits per second, as the case's name spells it. */
  function Nominal(b: BaudRate): nat
  {
    match b
    case Baud0 => 0
    case Baud50 => 50
    case Baud75 => 75
    case Baud110 => 110
    case Baud134 => 134
    case Baud150 => 150
    case Baud200 => 200
    case Baud300 => 300
    case Baud600 => 600
    case Baud1200 => 1200
    case Baud1800 => 1800
    case Baud2400 => 2400
    case Baud4800 => 4800
    case Baud9600 => 9600
    case Baud19200 => 19200
    case Baud38400 => 38400
    case Baud57600 => 57600
    case Baud115200 => 115200
    case Baud230400 => 230400
    case Baud460800 => 460800
    case Baud500000 => 500000
    case Baud576000 => 576000
    case Baud921600 => 921600
    case Baud1000000 => 1000000
    case Baud1152000 => 1152000
    case Baud1500000 => 1500000
    case Baud2000000 => 2000000
    case Baud2500000 => 2500000
    case Baud3500000 => 3500000
    case Baud4000000 => 4000000
  }

  /** The position of a rate in declaration order (see `RankIndexes`). */
  function Rank(b: BaudRate): (r: nat)
    ensures r < 30
  {
    match b
    case Baud0 => 0
    case Baud50 => 1
    case Baud75 => 2
    case Baud110 => 3
    case Baud134 => 4
    case Baud150 => 5
    case Baud200 => 6
    case Baud300 => 7
    case Baud600 => 8
    case Baud1200 => 9
    case Baud1800 => 10
    case Baud2400 => 11
    case Baud4800 => 12
    case Baud9600 => 13
    case Baud19200 => 14
    case Baud38400 => 15
    case Baud57600 => 16
    case Baud115200 => 17
    case Baud230400 => 18
    case Baud460800 => 19
    case Baud500000 => 20
    case Baud576000 => 21
    case Baud921600 => 22
    case Baud1000000 => 23
    case Baud1152000 => 24
    case Baud1500000 => 25
    case Baud2000000 => 26
    case Baud2500000 => 27
    case Baud3500000 => 28
    case Baud4000000 => 29
  }

  /** `AllRates` lists each rate at its rank. */
  lemma RankIndexes(b: BaudRate)
    ensures Rank(b) < |AllRates| && AllRates[Rank(b)] == b
  {
  }

  /** The `B*` constant for a rate. On Darwin the constant is the rate itself.
      On Linux the constants number the rates in ascending order: the sixteen
      rates up to 38400 take 0 to 15, and the faster ones take the CBAUDEX
      bit (0x1000) plus 1, 2, ... in turn, where the header's B3000000 (which
      has no case here) takes 0x100d. */
  function SpeedValue(p: Platform, b: BaudRate): (r: nat)
    requires AvailableOn(b, p)
    ensures p == Darwin ==> r == Nominal(b)
    ensures p == Linux && Nominal(b) <= 38400 ==> r == Rank(b)
    ensures p == Linux && 38400 < Nominal(b) < 3000000 ==> r == 0x1000 + Rank(b) - 15
    ensures p == Linux && 3000000 < Nominal(b) ==> r == 0x1000 + Rank(b) - 14
  {
    match p
    case Darwin => Nominal(b)
    case Linux =>
      match b
      case Baud0 => 0x0
      case Baud50 => 0x1
      case Baud75 => 0x2
      case Baud110 => 0x3
      case Baud134 => 0x4
      case Baud150 => 0x5
      case Baud200 => 0x6
      case Baud300 => 0x7
      case Baud600 => 0x8
      case Baud1200 => 0x9
      case Baud1800 => 0xa
      case Baud2400 => 0xb
      case Baud4800 => 0xc
      case Baud9600 => 0xd
      case Baud19200 => 0xe
      case Baud38400 => 0xf
      case Baud57600 => 0x1001
      case Baud115200 => 0x1002
      case Baud230400 => 0x1003
      case Baud460800 => 0x1004
      case Baud500000 => 0x1005
      case Baud576000 => 0x1006
      case Baud921600 => 0x1007
      case Baud1000000 => 0x1008
      case Baud1152000 => 0x1009
      case Baud1500000 => 0x100a
      case Baud2000000 => 0x100b
      case Baud2500000 => 0x100c
      case Baud3500000 => 0x100e
      case Baud4000000 => 0x100f
  }

  /** Declaration order lists the rates in ascending order: 19 of them first
      that exist everywhere, then the 11 Linux-only ones. */
  lemma {:induction false} AllRatesLayout()
    ensures |AllRates| == 30
    ensures forall i :: 0 <= i < |AllRates| ==> (LinuxOnly(AllRates[i]) <==> 19 <= i)
  {
    forall i | 0 <= i < |AllRates|
      ensures LinuxOnly(AllRates[i]) <==> 19 <= i
    {
        if i == 0 {} else if i == 1 {} else if i == 2 {} else if i == 3 {} else
        if i == 4 {} else if i == 5 {} else if i == 6 {} else if i == 7 {} else
        if i == 8 {} else if i == 9 {} else if i == 10 {} else if i == 11 {} else
        if i == 12 {} else if i == 13 {} else if i == 14 {} else if i == 15 {} else
        if i == 16 {} else if i == 17 {} else if i == 18 {} else if i == 19 {} else
        if i == 20 {} else if i == 21 {} else if i == 22 {} else if i == 23 {} else
        if i == 24 {} else if i == 25 {} else if i == 26 {} else if i == 27 {} else
        if i == 28 {} else {}
    }
  }

  /** Faster rates have larger codes, on both platforms. */
  lemma CodesAscend(p: Platform, a: BaudRate, b: BaudRate)
    requires AvailableOn(a, p) && AvailableOn(b, p)
    requires Nominal(a) < Nominal(b)
    ensures SpeedValue(p, a) < SpeedValue(p, b)
  {
    RankFollowsNominal(a, b);
  }

  /** Declaration order is ascending order of the rates. */
  lemma RankFollowsNominal(a: BaudRate, b: BaudRate)
    ensures Nominal(a) < Nominal(b) <==> Rank(a) < Rank(b)
  {
  }

  /** The Linux-only rates are exactly those above 230400 baud. */
  lemma LinuxOnlyAbove230400(b: BaudRate)
    ensures LinuxOnly(b) <==> Nominal(b) > 230400
  {
  }

  /** The rate a `speed_t` code stands for on a platform, if any: the table
      of `B*` constants read the other way. */
  function FromSpeedValue(p: Platform, v: nat): (r: Option<BaudRate>)
    ensures r.Some? ==> AvailableOn(r.value, p)
  {
    match p
    case Linux =>
      if v == 0x0 then Some(Baud0) else
      if v == 0x1 then Some(Baud50) else
      if v == 0x2 then Some(Baud75) else
      if v == 0x3 then Some(Baud110) else
      if v == 0x4 then Some(Baud134) else
      if v == 0x5 then Some(Baud150) else
      if v == 0x6 then Some(Baud200) else
      if v == 0x7 then Some(Baud300) else
      if v == 0x8 then Some(Baud600) else
      if v == 0x9 then Some(Baud1200) else
      if v == 0xa then Some(Baud1800) else
      if v == 0xb then Some(Baud2400) else
      if v == 0xc then Some(Baud4800) else
      if v == 0xd then Some(Baud9600) else
      if v == 0xe then Some(Baud19200) else
      if v == 0xf then Some(Baud38400) else
      if v == 0x1001 then Some(Baud57600) else
      if v == 0x1002 then Some(Baud115200) else
      if v == 0x1003 then Some(Baud230400) else
      if v == 0x1004 then Some(Baud460800) else
      if v == 0x1005 then Some(Baud500000) else
      if v == 0x1006 then Some(Baud576000) else
      if v == 0x1007 then Some(Baud921600) else
      if v == 0x1008 then Some(Baud1000000) else
      if v == 0x1009 then Some(Baud1152000) else
      if v == 0x100a then Some(Baud1500000) else
      if v == 0x100b then Some(Baud2000000) else
      if v == 0x100c then Some(Baud2500000) else
      if v == 0x100e then Some(Baud3500000) else
      if v == 0x100f then Some(Baud4000000) else
      None
    case Darwin =>
      if v == 0 then Some(Baud0) else
      if v == 50 then Some(Baud50) else
      if v == 75 then Some(Baud75) else
      if v == 110 then Some(Baud110) else
      if v == 134 then Some(Baud134) else
      if v == 150 then Some(Baud150) else
      if v == 200 then Some(Baud200) else
      if v == 300 then Some(Baud300) else
      if v == 600 then Some(Baud600) else
      if v == 1200 then Some(Baud1200) else
      if v == 1800 then Some(Baud1800) else
      if v == 2400 then Some(Baud2400) else
      if v == 4800 then Some(Baud4800) else
      if v == 9600 then Some(Baud9600) else
      if v == 19200 then Some(Baud19200) else
      if v == 38400 then Some(Baud38400) else
      if v == 57600 then Some(Baud57600) else
      if v == 115200 then Some(Baud115200) else
      if v == 230400 then Some(Baud230400) else
      None
  }

  /** Decoding the code of a rate gives the rate back. */
  lemma SpeedRoundTrip(p: Platform, b: BaudRate)
    requires AvailableOn(b, p)
    ensures FromSpeedValue(p, SpeedValue(p, b)) == Some(b)
  {
  }

  /** No two rates share a `B*` constant on the same platform. */
  lemma SpeedValueInjective(p: Platform, a: BaudRate, b: BaudRate)
    requires AvailableOn(a, p) && AvailableOn(b, p)
    requires SpeedValue(p, a) == SpeedValue(p, b)
    ensures a == b
  {
    SpeedRoundTrip(p, a);
    SpeedRoundTrip(p, b);
  }

  /** Every code a rate decodes from is that rate's code. */
  lemma FromSpeedValueSound(p: Platform, v: nat)
    requires FromSpeedValue(p, v).Some?
    ensures SpeedValue(p, FromSpeedValue(p, v).value) == v
  {
    if p == Linux {} else {}
  }
}

=== FILE: bit_words.dfy ===
/** Facts about 32-bit mode words that hold for every word and every mask.
    The platform-specific proofs instantiate them with the header constants,
    so that no single solver query has to reason about the constants and a
    symbolic word at once. */
module BitWords {

  /** `k` lies inside `m`: it has no bit outside the mask. */
  predicate Inside(k: bv32, m: bv32) { k & !m == 0 }

  /** Setting bits inside a mask leaves the bits outside it alone. */
  lemma SetKeepsOutside(x: bv32, k: bv32, m: bv32)
    ensures Inside(k, m)
      ==> (x | k) & !m == x & !m
  {
  }

  lemma OrTwice(x: bv32, k: bv32)
    ensures (x | k) | k == x | k
  {
  }

  lemma ClearTwice(x: bv32, k: bv32)
    ensures (x & !k) & !k == x & !k
  {
  }

  /** Masking by a sub-mask can go through the larger mask first. */
  lemma MaskWithin(x: bv32, outer: bv32, inner: bv32)
    ensures inner & outer == inner
      ==> x & inner == (x & outer) & inner
  {
  }

  /** Two words that agree inside a mask and outside it are equal. */
  lemma AgreeInsideAndOutside(x: bv32, y: bv32, m: bv32)
    ensures x & m == y & m && x & !m == y & !m
      ==> x == y
  {
  }

  lemma MaskByUnion2(x: bv32, a: bv32, b: bv32)
    ensures x & (a | b) == (x & a) | (x & b)
  {
  }

  lemma MaskByUnion5(x: bv32, a: bv32, b: bv32, c: bv32, d: bv32, e: bv32)
    ensures x & (a | b | c | d | e) == (x & a) | (x & b) | (x & c) | (x & d) | (x & e)
  {
  }

  /** Setting or clearing one mask leaves every bit outside it alone. */
  lemma ToggleKeepsOutside(x: bv32, k: bv32, on: bool)
    ensures (if on then x | k else x & !k) & !k == x & !k
  {
    if on {} else {}
  }

  /** Setting or clearing a mask leaves the mask all set or all clear. */
  lemma ToggleSetsMask(x: bv32, k: bv32, on: bool)
    ensures (if on then x | k else x & !k) & k == (if on then k else 0)
  {
    if on {} else {}
  }

  /** Setting or clearing two masks one after the other leaves every bit
      outside both alone. */
  lemma ToggleTwoKeepsOutside(x: bv32, a: bv32, b: bv32, on: bool)
    ensures (if on then (x | a) | b else (x & !a) & !b) & !(a | b) == x & !(a | b)
  {
    if on {} else {}
  }

  /** Clearing one mask and then setting or clearing a second leaves every bit
      outside both alone. */
  lemma ClearThenToggleKeepsOutside(x: bv32, a: bv32, b: bv32, on: bool)
    ensures (if on then (x & !a) | b else (x & !a) & !b) & !(a | b) == x & !(a | b)
  {
    if on {} else {}
  }

  /** Clearing a mask and then OR-ing in a value inside it leaves every bit
      outside the mask alone. */
  lemma ReplaceKeepsOutside(x: bv32, v: bv32, m: bv32)
    ensures Inside(v, m)
      ==> ((x & !m) | v) & !m == x & !m
  {
  }

  lemma OrOwnMask(x: bv32, m: bv32)
    ensures (x | m) & !m == x & !m
  {
  }

  /** OR-ing in a value inside a mask adds it to what the mask held. */
  lemma SetInside(x: bv32, v: bv32, m: bv32)
    ensures Inside(v, m)
      ==> (x | v) & m == (x & m) | v
  {
  }

  /** A chain of five steps, each of which leaves alone every bit outside its
      own mask, leaves alone every bit outside the union of the masks. */
  lemma ChainKeepsOutside(x: bv32, w1: bv32, w2: bv32, w3: bv32, w4: bv32, w5: bv32,
                          m1: bv32, m2: bv32, m3: bv32, m4: bv32, m5: bv32)
    ensures && w1 & !m1 == x & !m1
            && w2 & !m2 == w1 & !m2
            && w3 & !m3 == w2 & !m3
            && w4 & !m4 == w3 & !m4
            && w5 & !m5 == w4 & !m5
      ==> w5 & !(m1 | m2 | m3 | m4 | m5) == x & !(m1 | m2 | m3 | m4 | m5)
  {
  }

  /** A non-zero bit `k` inside mask `m`, after `m`'s bits were OR-ed with
      `v`: set if `v` sets it, and otherwise as it was. */
  lemma MergedBit(after: bv32, before: bv32, m: bv32, v: bv32, k: bv32, on: bool)
    ensures k != 0 && k & m == k && after & m == (before & m) | v && v & k == (if on then k else 0)
      ==> if on then after & k != 0 else after & k == before & k
  {
    if on {} else {}
  }

  lemma FullMaskStaysFull(after: bv32, before: bv32, m: bv32, v: bv32)
    ensures Inside(v, m) && after & m == (before & m) | v && before & m == m
      ==> after & m == m
  {
  }
}

=== FILE: blocking_read.dfy ===
/** `readBytesBlocking(count:timeout:)`: fill a zeroed buffer of `count`
    bytes by repeated reads until it is full or the time is up. The clock is
    not modelled; instead the loop is given the answers of successive
    checks, each saying whether the deadline has not yet passed and what the
    device answers to the read that follows. When the answers run out the
    deadline is taken to have passed. */
module BlockingRead {
  import opened Wrappers
  import opened SerialErrors
  import opened SerialPort

  /** One turn of the loop as the environment decides it: whether the
      deadline check still passes, and the system's answers to the read. */
  datatype Poll = Poll(inTime: bool, reply: ReadReply)

  /** The buffer and the number of bytes received into it. */
  datatype Filled = Filled(data: seq<bv8>, received: nat)

  function Zeros(n: nat): (r: seq<bv8>)
    ensures |r| == n && forall i :: 0 <= i < n ==> r[i] == 0
  {
    seq(n, i => 0 as bv8)
  }

  /** Writing `bytes` into `data` at offset `at`: the bytes before and after
      the written stretch are kept. */
  function Splice(data: seq<bv8>, at: nat, bytes: seq<bv8>): (r: seq<bv8>)
    requires at + |bytes| <= |data|
    ensures |r| == |data|
    ensures r[..at] == data[..at]
    ensures r[at..at + |bytes|] == bytes
    ensures forall k :: at + |bytes| <= k <= |data| ==> r[k..] == data[k..]
  {
    var r := data[..at] + bytes + data[at + |bytes|..];
    assert forall k :: at + |bytes| <= k <= |data| ==> r[k..] == data[k..] by {
      forall k | at + |bytes| <= k <= |data|
        ensures r[k..] == data[k..]
      {
        assert |r[k..]| == |data[k..]|;
        forall j | 0 <= j < |data| - k
          ensures r[k..][j] == data[k..][j]
        {
          assert r[k + j] == data[k + j];
        }
      }
    }
    r
  }

  /** The loop, one turn per poll: stop when the buffer is full or the
      deadline has passed; otherwise read into the unfilled tail, and
      abandon the buffer on the first error a read throws. */
  function Fill(h: Handle, count: nat, polls: seq<Poll>, data: seq<bv8>, received: nat): (r: Result<Filled, SerialError>)
    requires |data| == count && received <= count
    ensures r.Success? ==>
      && |r.value.data| == count
      && received <= r.value.received <= count
      && r.value.data[..received] == data[..received]
      && r.value.data[r.value.received..] == data[r.value.received..]
    decreases |polls|
  {
    if received >= count || |polls| == 0 || !polls[0].inTime then
      Success(Filled(data, received))
    else
      match RawRead(h, count - received, polls[0].reply)
      case Failure(e) => Failure(e)
      case Success(bytes) =>
        var next := Splice(data, received, bytes);
        var r := Fill(h, count, polls[1..], next, received + |bytes|);
        if r.Success? then
          assert r.value.data[..received] == r.value.data[..received + |bytes|][..received];
          assert next[..received] == next[..received + |bytes|][..received];
          r
        else r
  }

  /** The bytes the reads deliver, in order, independently of where they
      are stored. */
  function Collected(h: Handle, count: nat, polls: seq<Poll>, received: nat): Result<seq<bv8>, SerialError>
    decreases |polls|
  {
    if received >= count || |polls| == 0 || !polls[0].inTime then Success([])
    else
      match RawRead(h, count - received, polls[0].reply)
      case Failure(e) => Failure(e)
      case Success(bytes) =>
        match Collected(h, count, polls[1..], received + |bytes|)
        case Failure(e) => Failure(e)
        case Success(rest) => Success(bytes + rest)
  }

  /** The buffer holds exactly the delivered bytes, in order, right after the
      bytes already received; the loop fails exactly when some read fails. */
  lemma {:induction false} FillStoresCollected(h: Handle, count: nat, polls: seq<Poll>, data: seq<bv8>, received: nat)
    requires |data| == count && received <= count
    ensures Fill(h, count, polls, data, received).Success? <==> Collected(h, count, polls, received).Success?
    ensures Fill(h, count, polls, data, received).Failure? ==>
      Fill(h, count, polls, data, received).error == Collected(h, count, polls, received).error
    ensures Fill(h, count, polls, data, received).Success? ==>
      var f := Fill(h, count, polls, data, received).value;
      var d := Collected(h, count, polls, received).value;
      f.received == received + |d| && f.data[received..f.received] == d
    decreases |polls|
  {
    if received >= count || |polls| == 0 || !polls[0].inTime {
    } else {
      match RawRead(h, count - received, polls[0].reply)
      case Failure(e) =>
      case Success(bytes) =>
        var next := Splice(data, received, bytes);
        var mid := received + |bytes|;
        FillStoresCollected(h, count, polls[1..], next, mid);
        var r := Fill(h, count, polls[1..], next, mid);
        var c := Collected(h, count, polls[1..], mid);
        assert Fill(h, count, polls, data, received) == r;
        if r.Success? {
          assert Collected(h, count, polls, received) == Success(bytes + c.value);
          JoinSlices(r.value.data, next, received, mid, r.value.received, bytes, c.value);
        } else {
          assert Collected(h, count, polls, received) == Failure(c.error);
        }
    }
  }

  /** A stretch that agrees with `next` up to `mid` and holds `rest` after it
      holds the bytes `next` holds there followed by `rest`. */
  lemma JoinSlices(f: seq<bv8>, next: seq<bv8>, lo: nat, mid: nat, hi: nat, bytes: seq<bv8>, rest: seq<bv8>)
    requires lo <= mid <= hi <= |f| && mid <= |next|
    requires f[..mid] == next[..mid] && next[lo..mid] == bytes && f[mid..hi] == rest
    ensures f[lo..hi] == bytes + rest
  {
    assert f[lo..mid] == f[..mid][lo..];
    assert next[lo..mid] == next[..mid][lo..];
    assert f[lo..hi] == f[lo..mid] + f[mid..hi];
  }

  /** `readBytesBlocking` as written: the buffer handed back is always the
      full `count` bytes, the received ones followed by zeros, and a read
      error discards everything received so far. */
  method ReadBytesBlocking(h: Handle, count: nat, polls: seq<Poll>) returns (r: Result<seq<bv8>, SerialError>)
    ensures r.Success? <==> Fill(h, count, polls, Zeros(count), 0).Success?
    ensures r.Failure? ==> r.error == Fill(h, count, polls, Zeros(count), 0).error
    ensures r.Success? ==> r.value == Fill(h, count, polls, Zeros(count), 0).value.data
    ensures r.Success? ==> |r.value| == count
  {
    var data := Zeros(count);
    var received: nat := 0;
    var i := 0;
    while received < count && i < |polls| && polls[i].inTime
      invariant 0 <= i <= |polls|
      invariant |data| == count && received <= count
      invariant Fill(h, count, polls, Zeros(count), 0) == Fill(h, count, polls[i..], data, received)
      decreases |polls| - i
    {
      assert polls[i..][0] == polls[i];
      assert polls[i..][1..] == polls[i + 1..];
      var got := RawRead(h, count - received, polls[i].reply);
      if got.Failure? {
        return Failure(got.error);
      }
      data := Splice(data, received, got.value);
      received := received + |got.value|;
      i := i + 1;
    }
    return Success(data);
  }

  /** The bytes `readBytesBlocking` received before it stopped, as its
      documentation describes the result: up to `count` bytes, fewer when
      the deadline passed first. */
  method ReadBytesBlockingIntended(h: Handle, count: nat, polls: seq<Poll>) returns (r: Result<seq<bv8>, SerialError>)
    ensures r.Success? <==> Collected(h, count, polls, 0).Success?
    ensures r.Failure? ==> r.error == Collected(h, count, polls, 0).error
    ensures r.Success? ==> r.value == Collected(h, count, polls, 0).value && |r.value| <= count
  {
    var full := ReadBytesBlocking(h, count, polls);
    FillStoresCollected(h, count, polls, Zeros(count), 0);
    if full.Failure? {
      return Failure(full.error);
    }
    var f := Fill(h, count, polls, Zeros(count), 0).value;
    assert f.data[0..f.received] == f.data[..f.received];
    return Success(full.value[..f.received]);
  }

  /** The full buffer is the delivered bytes followed by zeros up to `count`. */
  lemma BlockingResultIsCollectedThenZeros(h: Handle, count: nat, polls: seq<Poll>)
    ensures var f := Fill(h, count, polls, Zeros(count), 0);
      f.Success? ==>
        && Collected(h, count, polls, 0).Success?
        && f.value.data == Collected(h, count, polls, 0).value + Zeros(count - f.value.received)
  {
    FillStoresCollected(h, count, polls, Zeros(count), 0);
    var f := Fill(h, count, polls, Zeros(count), 0);
    if f.Success? {
      var d := f.value.data;
      var n := f.value.received;
      assert d[..n] == Collected(h, count, polls, 0).value by {
        assert d[0..n] == d[..n];
      }
      assert d[n..] == Zeros(count - n) by {
        ZerosTail(count, n);
      }
      assert d == d[..n] + d[n..];
    }
  }

  lemma ZerosTail(count: nat, n: nat)
    requires n <= count
    ensures Zeros(count)[n..] == Zeros(count - n)
  {
  }

  /** An open port whose device delivers 3 of 10 requested bytes before the
      deadline passes yields those 3 bytes and 7 zeros, not 3 bytes. */
  lemma ShortReadIsPadded(h: Handle, a: bv8, b: bv8, c: bv8)
    requires IsOpen(h)
    ensures var polls := [Poll(true, ReadReply(1, Delivered([a, b, c]))), Poll(false, ReadReply(1, Delivered([])))];
      && Fill(h, 10, polls, Zeros(10), 0) == Success(Filled([a, b, c] + Zeros(7), 3))
      && Collected(h, 10, polls, 0) == Success([a, b, c])
  {
    var polls := [Poll(true, ReadReply(1, Delivered([a, b, c]))), Poll(false, ReadReply(1, Delivered([])))];
    var bytes := [a, b, c];
    assert bytes[..3] == bytes;
    assert RawRead(h, 10, polls[0].reply) == Success(bytes);
    assert polls[1..] == [polls[1]];
    assert Splice(Zeros(10), 0, bytes) == bytes + Zeros(7);
    assert Fill(h, 10, polls[1..], bytes + Zeros(7), 3) == Success(Filled(bytes + Zeros(7), 3));
    assert Collected(h, 10, polls[1..], 3) == Success([]);
    assert bytes + [] == bytes;
  }

  /** A request for no bytes never reads, so it succeeds even on a closed port. */
  lemma EmptyRequestNeverFails(h: Handle, polls: seq<Poll>)
    ensures Fill(h, 0, polls, Zeros(0), 0) == Success(Filled([], 0))
  {
  }

  /** When the deadline has already passed at the first check, a closed port
      answers `count` zero bytes instead of `portIsClosed`. */
  lemma ClosedPortPastDeadline(h: Handle, count: nat, polls: seq<Poll>)
    requires !IsOpen(h)
    requires |polls| == 0 || !polls[0].inTime
    ensures Fill(h, count, polls, Zeros(count), 0) == Success(Filled(Zeros(count), 0))
  {
  }

  /** A closed port given time to read throws `portIsClosed`. */
  lemma ClosedPortInTime(h: Handle, count: nat, polls: seq<Poll>)
    requires !IsOpen(h) && count > 0
    requires |polls| > 0 && polls[0].inTime
    ensures Fill(h, count, polls, Zeros(count), 0) == Failure(PortIsClosed)
  {
  }
}

=== FILE: data_bits.dfy ===
/** The number of data bits per character and its `CSIZE` field value. */
module DataBitsFlags {
  import opened Wrappers
  import opened Termios

  datatype DataBits = Five | Six | Seven | Eight

  /** The cases in declaration order. */
  const AllSizes: seq<DataBits> := [Five, Six, Seven, Eight]

  /** The enum's raw value: the number of data bits itself, so the cases
      declared in order carry 5, 6, 7 and 8. */
  function RawValue(d: DataBits): (r: nat)
    ensures 5 <= r <= 8
    ensures AllSizes[r - 5] == d
    ensures FromRawValue(r) == Some(d)
  {
    match d
    case Five => 5
    case Six => 6
    case Seven => 7
    case Eight => 8
  }

  /** The failable initialiser `DataBits(rawValue:)`. */
  function FromRawValue(v: int): (r: Option<DataBits>)
    ensures r.Some? <==> 5 <= v <= 8
  {
    if v == 5 then Some(Five)
    else if v == 6 then Some(Six)
    else if v == 7 then Some(Seven)
    else if v == 8 then Some(Eight)
    else None
  }

  /** The `CSn` constant for the character size. */
  function FlagValue(p: Platform, d: DataBits): bv32
  {
    match d
    case Five => CS5(p)
    case Six => CS6(p)
    case Seven => CS7(p)
    case Eight => CS8(p)
  }

  /** The `CSn` constants step through the CSIZE field in units of CS6, so
      the flag value grows with the number of data bits. */
  lemma FlagValueFollowsBits(p: Platform, d: DataBits)
    ensures FlagValue(p, d) == ((RawValue(d) - 5) as bv32) * CS6(p)
  {
    match p
    case Linux => match d { case Five => case Six => case Seven => case Eight => }
    case Darwin => match d { case Five => case Six => case Seven => case Eight => }
  }

  /** Every flag value lies inside the CSIZE field, so clearing the field
      and OR-ing the value in leaves the field equal to it. */
  lemma FlagValueWithinSize(p: Platform, d: DataBits)
    ensures FlagValue(p, d) & !CSIZE(p) == 0
  {
    match p
    case Linux => match d { case Five => case Six => case Seven => case Eight => }
    case Darwin => match d { case Five => case Six => case Seven => case Eight => }
  }

  /** The character size a `c_cflag` word selects. The CSIZE field is two bits
      wide and all four of its values name a size, so this is total. */
  function DataBitsOf(p: Platform, cflag: bv32): (r: DataBits)
  {
    var field := cflag & CSIZE(p);
    if field == CS5(p) then Five
    else if field == CS6(p) then Six
    else if field == CS7(p) then Seven
    else Eight
  }

  /** The size can be read back from its flag value. */
  lemma DataBitsRoundTrip(p: Platform, d: DataBits)
    ensures DataBitsOf(p, FlagValue(p, d)) == d
  {
    match p
    case Linux => match d { case Five => case Six => case Seven => case Eight => }
    case Darwin => match d { case Five => case Six => case Seven => case Eight => }
  }

  /** The size read from any word whose CSIZE field holds a size's flag
      value is that size. */
  lemma DataBitsReadBack(p: Platform, d: DataBits, cflag: bv32)
    ensures cflag & CSIZE(p) == FlagValue(p, d) ==> DataBitsOf(p, cflag) == d
  {
    DataBitsRoundTrip(p, d);
    FlagValueWithinSize(p, d);
  }

  /** No two sizes share a flag value. */
  lemma FlagValueInjective(p: Platform, a: DataBits, b: DataBits)
    requires FlagValue(p, a) == FlagValue(p, b)
    ensures a == b
  {
    DataBitsRoundTrip(p, a);
    DataBitsRoundTrip(p, b);
  }

  /** Every value of the CSIZE field is the flag of the size read from it. */
  lemma {:induction false} CsizeFieldCovered(p: Platform, cflag: bv32)
    ensures FlagValue(p, DataBitsOf(p, cflag)) == cflag & CSIZE(p)
  {
    var field := cflag & CSIZE(p);
    if p == Linux {
      assert field == 0x0 || field == 0x10 || field == 0x20 || field == 0x30;
    } else {
      assert field == 0x0 || field == 0x100 || field == 0x200 || field == 0x300;
    }
  }
}

=== FILE: parity.dfy ===
/** The parity setting of a connection and the `c_cflag` bits it stands for. */
module ParityFlags {
  import opened Termios

  datatype Parity = None | Even | Odd

  /** Both parity bits: enable (PARENB) and odd-select (PARODD). */
  function ParityMask(p: Platform): bv32 { PARENB(p) | PARODD(p) }

  /** The bits OR-ed into `c_cflag` for a parity setting. */
  function ParityValue(p: Platform, par: Parity): bv32
  {
    match par
    case None => 0
    case Even => PARENB(p)
    case Odd => PARENB(p) | PARODD(p)
  }

  /** A parity value lies within the parity mask. */
  lemma ParityValueInside(p: Platform, par: Parity)
    ensures ParityValue(p, par) & !ParityMask(p) == 0
  {
    match p
    case Linux => match par { case None => case Even => case Odd => }
    case Darwin => match par { case None => case Even => case Odd => }
  }

  /** The parity a `c_cflag` word selects: none unless PARENB is set, then odd
      or even by PARODD. */
  function ParityOf(p: Platform, cflag: bv32): Parity
  {
    if cflag & PARENB(p) == 0 then None
    else if cflag & PARODD(p) != 0 then Odd
    else Even
  }

  /** Both parity bits set select odd parity. */
  lemma OddWhenMaskFull(p: Platform, cflag: bv32)
    requires cflag & ParityMask(p) == ParityMask(p)
    ensures ParityOf(p, cflag) == Odd
  {
    if p == Linux {} else {}
  }

  /** Whether a word's parity bits leave room for a requested parity once
      that parity's value is OR-ed in: none needs PARENB clear, even needs
      PARODD clear, and odd fits every word. */
  predicate Admits(p: Platform, par: Parity, cflag: bv32)
  {
    && (par == None ==> cflag & PARENB(p) == 0)
    && (par == Even ==> cflag & PARODD(p) == 0)
  }

  /** Each parity bit taken alone: PARENB and PARODD are distinct non-zero
      bits of the mask, and a parity value holds PARENB unless it is none and
      PARODD only when it is odd. */
  lemma ParityBits(p: Platform, par: Parity)
    ensures PARENB(p) != 0 && PARENB(p) & ParityMask(p) == PARENB(p)
    ensures PARODD(p) != 0 && PARODD(p) & ParityMask(p) == PARODD(p)
    ensures ParityValue(p, par) & PARENB(p) == (if par == None then 0 else PARENB(p))
    ensures ParityValue(p, par) & PARODD(p) == (if par == Odd then PARODD(p) else 0)
  {
    match p
    case Linux => match par { case None => case Even => case Odd => }
    case Darwin => match par { case None => case Even => case Odd => }
  }

  /** Only even and odd parity set PARENB, only odd parity sets PARODD, and
      reading the parity back from the bits of a setting gives the setting. */
  lemma ParityRoundTrip(p: Platform, par: Parity)
    ensures (ParityValue(p, par) & PARENB(p) != 0) == (par != None)
    ensures (ParityValue(p, par) & PARODD(p) != 0) == (par == Odd)
    ensures ParityOf(p, ParityValue(p, par)) == par
  {
    match p
    case Linux => match par { case None => case Even => case Odd => }
    case Darwin => match par { case None => case Even => case Odd => }
  }

  lemma ParityValueInjective(p: Platform, a: Parity, b: Parity)
    requires ParityValue(p, a) == ParityValue(p, b)
    ensures a == b
  {
    ParityRoundTrip(p, a);
    ParityRoundTrip(p, b);
  }
}

=== FILE: port_settings.dfy ===
/** The pure heart of opening a port: the connection settings a caller asks
    for, and the transform that turns the `termios` record read from the
    device into the record committed back to it. Every step is unconditional
    bit arithmetic on the mode words: OR-in, clear, clear-then-OR, or set/clear
    by a toggle; the special-character table is replaced outright. */
module PortSettings {
  import opened Wrappers
  import opened Termios
  import opened BaudRates
  import ParityFlags
  import opened DataBitsFlags
  import opened StopBitsFlags
  import opened BitWords

  /** The arguments of `open`, bar the path. */
  datatype PortConfig = PortConfig(
    receiveRate: Option<BaudRate>,
    transmitRate: Option<BaudRate>,
    minimumBytesToRead: int,
    timeout: int,
    parity: ParityFlags.Parity,
    stopBits: StopBits,
    dataBits: DataBits,
    useHardwareFlowControl: bool,
    useSoftwareFlowControl: bool,
    processOutput: bool)

  /** The configuration `open` uses for every argument the caller leaves out. */
  function DefaultConfig(receiveRate: Option<BaudRate>, transmitRate: Option<BaudRate>): PortConfig
  {
    PortConfig(receiveRate, transmitRate, 1, 0, ParityFlags.None, One, Eight, false, false, false)
  }

  /** The given rates are cases that exist on the platform. */
  predicate RatesAvailable(p: Platform, cfg: PortConfig)
  {
    && (cfg.receiveRate.Some? ==> AvailableOn(cfg.receiveRate.value, p))
    && (cfg.transmitRate.Some? ==> AvailableOn(cfg.transmitRate.value, p))
  }

  /** MIN and TIME fit a `cc_t`; outside this range the conversion traps. */
  predicate TimingFits(cfg: PortConfig)
  {
    0 <= cfg.minimumBytesToRead < 256 && 0 <= cfg.timeout < 256
  }

  // ---- the masks the transform works with ----

  /** The hardware flow-control bits: one combined bit on Linux, separate
      input and output bits on Darwin. */
  function HardwareFlowMask(p: Platform): bv32
  {
    if p == Linux then CRTSCTS else CRTS_IFLOW | CCTS_OFLOW
  }

  /** Receiver on and modem control lines ignored. */
  function ReceiverMask(p: Platform): bv32 { CREAD(p) | CLOCAL(p) }

  /** Every `c_cflag` bit the transform writes. */
  function ControlMask(p: Platform): bv32
  {
    ParityFlags.ParityMask(p) | CSTOPB(p) | CSIZE(p) | HardwareFlowMask(p) | ReceiverMask(p)
  }

  /** The input mappings of carriage return and newline. */
  function CrNlMask(p: Platform): bv32 { ICRNL(p) | INLCR(p) | IGNCR(p) }

  /** Software (XON/XOFF) flow control. */
  function SoftwareFlowMask(p: Platform): bv32 { IXON(p) | IXOFF(p) | IXANY(p) }

  /** Every `c_iflag` bit the transform writes. */
  function InputMask(p: Platform): bv32 { CrNlMask(p) | SoftwareFlowMask(p) }

  /** Canonical input, echo, erase echo and signal characters. */
  function LocalMask(p: Platform): bv32 { ICANON(p) | ECHO(p) | ECHOE(p) | ISIG(p) }

  // ---- the transform, one mode word at a time ----
  //
  // Each word function follows the source's steps in order; what the steps
  // achieve is stated by the lemma after it. The bit-vector facts are proved
  // one per helper lemma, which keeps every solver query small.

  /** `c_cflag`: parity OR-ed in, the stop-bit flag set or cleared, the size
      field cleared and refilled, hardware flow control set or cleared, and the
      receiver and local-line bits set. */
  function ControlFlags(p: Platform, cfg: PortConfig, cflag: bv32): bv32
  {
    var withParity := ParityStep(p, cfg.parity, cflag);
    var withStop := StopStep(p, cfg.stopBits, withParity);
    var withSize := SizeStep(p, cfg.dataBits, withStop);
    var withFlow := HardwareFlowStep(p, cfg.useHardwareFlowControl, withSize);
    ReceiverStep(p, withFlow)
  }

  /** The parity value OR-ed in; parity bits already set are not cleared. */
  function ParityStep(p: Platform, par: ParityFlags.Parity, cflag: bv32): bv32
  {
    cflag | ParityFlags.ParityValue(p, par)
  }

  /** CSTOPB set for two stop bits, cleared for one. */
  function StopStep(p: Platform, s: StopBits, cflag: bv32): bv32
  {
    if s == Two then cflag | CSTOPB(p) else cflag & !CSTOPB(p)
  }

  /** The size field cleared, then the size value OR-ed in. */
  function SizeStep(p: Platform, d: DataBits, cflag: bv32): bv32
  {
    (cflag & !CSIZE(p)) | FlagValue(p, d)
  }

  /** Hardware flow control set or cleared with the toggle: one combined bit
      on Linux, the input and then the output bit on Darwin. */
  function HardwareFlowStep(p: Platform, on: bool, cflag: bv32): bv32
  {
    match p
    case Linux =>
      if on then cflag | CRTSCTS else cflag & !CRTSCTS
    case Darwin =>
      if on then (cflag | CRTS_IFLOW) | CCTS_OFLOW
      else (cflag & !CRTS_IFLOW) & !CCTS_OFLOW
  }

  /** The receiver enabled and the modem-control lines ignored. */
  function ReceiverStep(p: Platform, cflag: bv32): bv32
  {
    cflag | ReceiverMask(p)
  }

  /** `c_cflag` after the transform: the parity value OR-ed in (parity bits
      already set stay set), the stop-bit flag set exactly for two stop bits,
      the size field equal to the requested size, the hardware flow-control
      bits all set or all clear with the toggle, the receiver and local-line
      bits set, and every other bit as it was. */
  lemma ControlFlagsSpec(p: Platform, cfg: PortConfig, cflag: bv32)
    ensures var r := ControlFlags(p, cfg, cflag);
      && r & ParityFlags.ParityMask(p) == (cflag & ParityFlags.ParityMask(p)) | ParityFlags.ParityValue(p, cfg.parity)
      && r & CSTOPB(p) == (if cfg.stopBits == Two then CSTOPB(p) else 0)
      && r & CSIZE(p) == FlagValue(p, cfg.dataBits)
      && r & HardwareFlowMask(p) == (if cfg.useHardwareFlowControl then HardwareFlowMask(p) else 0)
      && r & ReceiverMask(p) == ReceiverMask(p)
      && r & !ControlMask(p) == cflag & !ControlMask(p)
  {
    ControlParity(p, cfg, cflag);
    ControlStopBits(p, cfg, cflag);
    ControlSize(p, cfg, cflag);
    ControlHardwareFlow(p, cfg, cflag);
    ControlReceiver(p, cfg, cflag);
    ControlFrame(p, cfg, cflag);
  }

  lemma ControlParity(p: Platform, cfg: PortConfig, cflag: bv32)
    ensures ControlFlags(p, cfg, cflag) & ParityFlags.ParityMask(p) == (cflag & ParityFlags.ParityMask(p)) | ParityFlags.ParityValue(p, cfg.parity)
  {
    var withParity := ParityStep(p, cfg.parity, cflag);
    var withStop := StopStep(p, cfg.stopBits, withParity);
    var withSize := SizeStep(p, cfg.dataBits, withStop);
    var withFlow := HardwareFlowStep(p, cfg.useHardwareFlowControl, withSize);
    ParityFlags.ParityValueInside(p, cfg.parity);
    SetInside(cflag, ParityFlags.ParityValue(p, cfg.parity), ParityFlags.ParityMask(p));
    StopStepKeepsParity(p, cfg.stopBits, withParity);
    SizeStepKeepsParity(p, cfg.dataBits, withStop);
    HardwareFlowKeepsParity(p, cfg.useHardwareFlowControl, withSize);
    ReceiverStepKeepsParity(p, withFlow);
  }

  lemma StopStepKeepsParity(p: Platform, s: StopBits, cflag: bv32)
    ensures StopStep(p, s, cflag) & ParityFlags.ParityMask(p) == cflag & ParityFlags.ParityMask(p)
  {
  }

  lemma SizeStepKeepsParity(p: Platform, d: DataBits, cflag: bv32)
    ensures SizeStep(p, d, cflag) & ParityFlags.ParityMask(p) == cflag & ParityFlags.ParityMask(p)
  {
  }

  lemma HardwareFlowKeepsParity(p: Platform, on: bool, cflag: bv32)
    ensures HardwareFlowStep(p, on, cflag) & ParityFlags.ParityMask(p) == cflag & ParityFlags.ParityMask(p)
  {
  }

  lemma ReceiverStepKeepsParity(p: Platform, cflag: bv32)
    ensures ReceiverStep(p, cflag) & ParityFlags.ParityMask(p) == cflag & ParityFlags.ParityMask(p)
  {
  }

  lemma ControlStopBits(p: Platform, cfg: PortConfig, cflag: bv32)
    ensures ControlFlags(p, cfg, cflag) & CSTOPB(p) == (if cfg.stopBits == Two then CSTOPB(p) else 0)
  {
  }

  lemma ControlSize(p: Platform, cfg: PortConfig, cflag: bv32)
    ensures ControlFlags(p, cfg, cflag) & CSIZE(p) == FlagValue(p, cfg.dataBits)
  {
  }

  lemma ControlHardwareFlow(p: Platform, cfg: PortConfig, cflag: bv32)
    ensures ControlFlags(p, cfg, cflag) & HardwareFlowMask(p) == (if cfg.useHardwareFlowControl then HardwareFlowMask(p) else 0)
  {
  }

  lemma ControlReceiver(p: Platform, cfg: PortConfig, cflag: bv32)
    ensures ControlFlags(p, cfg, cflag) & ReceiverMask(p) == ReceiverMask(p)
  {
  }

  lemma ControlFrame(p: Platform, cfg: PortConfig, cflag: bv32)
    ensures ControlFlags(p, cfg, cflag) & !ControlMask(p) == cflag & !ControlMask(p)
  {
    var withParity := ParityStep(p, cfg.parity, cflag);
    var withStop := StopStep(p, cfg.stopBits, withParity);
    var withSize := SizeStep(p, cfg.dataBits, withStop);
    var withFlow := HardwareFlowStep(p, cfg.useHardwareFlowControl, withSize);
    ParityStepKeepsOutside(p, cfg.parity, cflag);
    StopStepKeepsOutside(p, cfg.stopBits, withParity);
    SizeStepKeepsOutside(p, cfg.dataBits, withStop);
    HardwareFlowKeepsOutside(p, cfg.useHardwareFlowControl, withSize);
    ReceiverStepKeepsOutside(p, withFlow);
    ChainKeepsOutside(cflag, withParity, withStop, withSize, withFlow, ReceiverStep(p, withFlow),
                      ParityFlags.ParityMask(p), CSTOPB(p), CSIZE(p), HardwareFlowMask(p), ReceiverMask(p));
  }

  lemma ParityStepKeepsOutside(p: Platform, par: ParityFlags.Parity, cflag: bv32)
    ensures ParityStep(p, par, cflag) & !ParityFlags.ParityMask(p) == cflag & !ParityFlags.ParityMask(p)
  {
    ParityFlags.ParityValueInside(p, par);
    SetKeepsOutside(cflag, ParityFlags.ParityValue(p, par), ParityFlags.ParityMask(p));
  }

  lemma StopStepKeepsOutside(p: Platform, s: StopBits, cflag: bv32)
    ensures StopStep(p, s, cflag) & !CSTOPB(p) == cflag & !CSTOPB(p)
  {
    if s == Two {
      OrOwnMask(cflag, CSTOPB(p));
    } else {
      ClearTwice(cflag, CSTOPB(p));
    }
  }

  lemma SizeStepKeepsOutside(p: Platform, d: DataBits, cflag: bv32)
    ensures SizeStep(p, d, cflag) & !CSIZE(p) == cflag & !CSIZE(p)
  {
    FlagValueWithinSize(p, d);
    ReplaceKeepsOutside(cflag, FlagValue(p, d), CSIZE(p));
  }

  lemma ReceiverStepKeepsOutside(p: Platform, cflag: bv32)
    ensures ReceiverStep(p, cflag) & !ReceiverMask(p) == cflag & !ReceiverMask(p)
  {
    OrOwnMask(cflag, ReceiverMask(p));
  }

  lemma HardwareFlowKeepsOutside(p: Platform, on: bool, cflag: bv32)
    ensures HardwareFlowStep(p, on, cflag) & !HardwareFlowMask(p) == cflag & !HardwareFlowMask(p)
  {
    if p == Linux {
      LinuxHardwareFlowKeepsOutside(on, cflag);
    } else {
      DarwinHardwareFlowKeepsOutside(on, cflag);
    }
  }

  // The bit-vector facts below are proved once per platform: a single query
  // that holds the constants of both platforms at once is far more expensive.

  lemma LinuxHardwareFlowKeepsOutside(on: bool, cflag: bv32)
    ensures HardwareFlowStep(Linux, on, cflag) & !HardwareFlowMask(Linux) == cflag & !HardwareFlowMask(Linux)
  {
    ToggleKeepsOutside(cflag, CRTSCTS, on);
  }

  lemma DarwinHardwareFlowKeepsOutside(on: bool, cflag: bv32)
    ensures HardwareFlowStep(Darwin, on, cflag) & !HardwareFlowMask(Darwin) == cflag & !HardwareFlowMask(Darwin)
  {
    ToggleTwoKeepsOutside(cflag, CRTS_IFLOW, CCTS_OFLOW, on);
  }

  /** `c_iflag`: the carriage-return/newline mappings cleared, then software
      flow control set or cleared. */
  function InputFlags(p: Platform, cfg: PortConfig, iflag: bv32): bv32
  {
    var noMapping := iflag & !(ICRNL(p) | INLCR(p) | IGNCR(p));
    var softwareFlow := IXON(p) | IXOFF(p) | IXANY(p);
    if cfg.useSoftwareFlowControl then noMapping | softwareFlow else noMapping & !softwareFlow
  }

  /** `c_iflag` after the transform: the three carriage-return/newline
      mappings cleared, the three software flow-control bits all set or all
      clear with the toggle, and every other bit as it was. */
  lemma InputFlagsSpec(p: Platform, cfg: PortConfig, iflag: bv32)
    ensures var r := InputFlags(p, cfg, iflag);
      && r & CrNlMask(p) == 0
      && r & SoftwareFlowMask(p) == (if cfg.useSoftwareFlowControl then SoftwareFlowMask(p) else 0)
      && r & !InputMask(p) == iflag & !InputMask(p)
  {
    InputNoMapping(p, cfg, iflag);
    InputSoftwareFlow(p, cfg, iflag);
    InputFrame(p, cfg, iflag);
  }

  lemma InputNoMapping(p: Platform, cfg: PortConfig, iflag: bv32)
    ensures InputFlags(p, cfg, iflag) & CrNlMask(p) == 0
  {
  }

  lemma InputSoftwareFlow(p: Platform, cfg: PortConfig, iflag: bv32)
    ensures InputFlags(p, cfg, iflag) & SoftwareFlowMask(p) == (if cfg.useSoftwareFlowControl then SoftwareFlowMask(p) else 0)
  {
    ToggleSetsMask(iflag & !CrNlMask(p), SoftwareFlowMask(p), cfg.useSoftwareFlowControl);
  }

  lemma InputFrame(p: Platform, cfg: PortConfig, iflag: bv32)
    ensures InputFlags(p, cfg, iflag) & !InputMask(p) == iflag & !InputMask(p)
  {
    ClearThenToggleKeepsOutside(iflag, CrNlMask(p), SoftwareFlowMask(p), cfg.useSoftwareFlowControl);
  }

  /** `c_lflag`: canonical mode, echo, erase echo and signal characters off. */
  function LocalFlags(p: Platform, lflag: bv32): bv32
  {
    lflag & !(ICANON(p) | ECHO(p) | ECHOE(p) | ISIG(p))
  }

  /** `c_lflag` after the transform: the four raw-mode bits cleared, every
      other bit as it was. */
  lemma LocalFlagsSpec(p: Platform, lflag: bv32)
    ensures LocalFlags(p, lflag) & LocalMask(p) == 0
    ensures LocalFlags(p, lflag) & !LocalMask(p) == lflag & !LocalMask(p)
  {
  }

  /** `c_oflag`: output post-processing set or cleared with the toggle. */
  function OutputFlags(p: Platform, cfg: PortConfig, oflag: bv32): bv32
  {
    if cfg.processOutput then oflag | OPOST(p) else oflag & !OPOST(p)
  }

  /** `c_oflag` after the transform: OPOST set exactly when output processing
      is requested, every other bit as it was. */
  lemma OutputFlagsSpec(p: Platform, cfg: PortConfig, oflag: bv32)
    ensures (OutputFlags(p, cfg, oflag) & OPOST(p) != 0) == cfg.processOutput
    ensures OutputFlags(p, cfg, oflag) & !OPOST(p) == oflag & !OPOST(p)
  {
    if cfg.processOutput {} else {}
  }

  /** What a named slot of the table holds under this model: MIN and TIME as
      given, every other slot zero. */
  function SlotSetting(s: CcSlot, vmin: bv8, vtime: bv8): bv8
  {
    if s == VMIN then vmin else if s == VTIME then vtime else 0
  }

  /** A fresh special-character table: NCCS slots, each holding what
      `SlotSetting` gives for the name at that position, whatever the old
      table held. */
  function SpecialCharacters(p: Platform, vmin: bv8, vtime: bv8): (r: seq<bv8>)
    ensures |r| == NCCS(p)
    ensures forall i :: 0 <= i < |r| ==> r[i] == SlotSetting(CcLayout(p)[i], vmin, vtime)
  {
    LayoutToIndex(p);
    ReadTimingSlots();
    var zeros := seq(NCCS(p), i => 0 as bv8);
    var minAt := CcIndex(p, VMIN).value;
    var timeAt := CcIndex(p, VTIME).value;
    zeros[minAt := vmin][timeAt := vtime]
  }

  /** Read by name, the fresh table holds MIN and TIME in the slots of those
      names and zero in every other slot the platform has. */
  lemma SpecialCharactersByName(p: Platform, vmin: bv8, vtime: bv8, s: CcSlot)
    requires CcIndex(p, s).Some?
    ensures SlotValue(p, SpecialCharacters(p, vmin, vtime), s) == Some(SlotSetting(s, vmin, vtime))
  {
    IndexToLayout(p, s);
    LayoutToIndex(p);
  }

  /** The whole transform of `open`: speeds for the directions given, the four
      mode words, and a fresh special-character table. A speed is replaced
      only for a direction with a rate; every mode-word bit outside the bits
      the transform writes keeps its value. */
  function ApplySettings(p: Platform, cfg: PortConfig, t: Termios): (r: Termios)
    requires RatesAvailable(p, cfg) && TimingFits(cfg)
    ensures cfg.receiveRate.Some? ==> r.ispeed == SpeedValue(p, cfg.receiveRate.value)
    ensures cfg.receiveRate.None? ==> r.ispeed == t.ispeed
    ensures cfg.transmitRate.Some? ==> r.ospeed == SpeedValue(p, cfg.transmitRate.value)
    ensures cfg.transmitRate.None? ==> r.ospeed == t.ospeed
    ensures |r.cc| == NCCS(p)
  {
    var ispeed := if cfg.receiveRate.Some? then SpeedValue(p, cfg.receiveRate.value) else t.ispeed;
    var ospeed := if cfg.transmitRate.Some? then SpeedValue(p, cfg.transmitRate.value) else t.ospeed;
    Termios(
      iflag := InputFlags(p, cfg, t.iflag),
      oflag := OutputFlags(p, cfg, t.oflag),
      cflag := ControlFlags(p, cfg, t.cflag),
      lflag := LocalFlags(p, t.lflag),
      cc := SpecialCharacters(p, cfg.minimumBytesToRead as bv8, cfg.timeout as bv8),
      ispeed := ispeed,
      ospeed := ospeed)
  }

  // ---- reading the settings back out of a record ----

  /** The line settings a `termios` record expresses, read field by field. */
  datatype Observed = Observed(
    inputRate: Option<BaudRate>,
    outputRate: Option<BaudRate>,
    parity: ParityFlags.Parity,
    stopBits: StopBits,
    dataBits: DataBits,
    hardwareFlow: bool,     // every hardware flow-control bit set
    softwareFlow: bool,     // every software flow-control bit set
    crNlMapped: bool,       // some carriage-return/newline mapping on
    receiverOn: bool,       // CREAD and CLOCAL both set
    rawInput: bool,         // canonical mode, echo, erase echo, signals all off
    processOutput: bool,
    vmin: Option<bv8>,
    vtime: Option<bv8>)

  /** The value of a named slot in a table, if the table reaches it. */
  function SlotValue(p: Platform, cc: seq<bv8>, s: CcSlot): Option<bv8>
  {
    match CcIndex(p, s)
    case None => None
    case Some(i) => if i < |cc| then Some(cc[i]) else None
  }

  function Observe(p: Platform, t: Termios): Observed
  {
    Observed(
      inputRate := FromSpeedValue(p, t.ispeed),
      outputRate := FromSpeedValue(p, t.ospeed),
      parity := ParityFlags.ParityOf(p, t.cflag),
      stopBits := if t.cflag & CSTOPB(p) != 0 then Two else One,
      dataBits := DataBitsOf(p, t.cflag),
      hardwareFlow := t.cflag & HardwareFlowMask(p) == HardwareFlowMask(p),
      softwareFlow := t.iflag & SoftwareFlowMask(p) == SoftwareFlowMask(p),
      crNlMapped := t.iflag & CrNlMask(p) != 0,
      receiverOn := t.cflag & ReceiverMask(p) == ReceiverMask(p),
      rawInput := t.lflag & LocalMask(p) == 0,
      processOutput := t.oflag & OPOST(p) != 0,
      vmin := SlotValue(p, t.cc, VMIN),
      vtime := SlotValue(p, t.cc, VTIME))
  }

  /** Reading the committed record back gives what the caller asked for:
      the rate of each direction given, the stop bits, data bits, both flow
      controls, output processing, MIN and TIME; carriage-return mapping off,
      receiver on, raw input. The parity reads back as requested when the old
      record had no parity bits set, or when odd parity was requested. */
  lemma SettingsRoundTrip(p: Platform, cfg: PortConfig, t: Termios)
    requires RatesAvailable(p, cfg) && TimingFits(cfg)
    ensures var o := Observe(p, ApplySettings(p, cfg, t));
      && (cfg.receiveRate.Some? ==> o.inputRate == cfg.receiveRate)
      && (cfg.transmitRate.Some? ==> o.outputRate == cfg.transmitRate)
      && o.stopBits == cfg.stopBits
      && o.dataBits == cfg.dataBits
      && o.hardwareFlow == cfg.useHardwareFlowControl
      && o.softwareFlow == cfg.useSoftwareFlowControl
      && o.processOutput == cfg.processOutput
      && !o.crNlMapped && o.receiverOn && o.rawInput
      && o.vmin == Some(cfg.minimumBytesToRead as bv8)
      && o.vtime == Some(cfg.timeout as bv8)
      && (t.cflag & ParityFlags.ParityMask(p) == 0 || cfg.parity == ParityFlags.Odd ==> o.parity == cfg.parity)
  {
    RatesRoundTrip(p, cfg, t);
    ControlSettingsRoundTrip(p, cfg, t);
    HardwareFlowRoundTrip(p, cfg, t);
    ModeSettingsRoundTrip(p, cfg, t);
    MinimumBytesRoundTrip(p, cfg, t);
    TimeoutRoundTrip(p, cfg, t);
  }

  /** The rate of each direction given reads back as that rate. */
  lemma RatesRoundTrip(p: Platform, cfg: PortConfig, t: Termios)
    requires RatesAvailable(p, cfg) && TimingFits(cfg)
    ensures cfg.receiveRate.Some? ==> Observe(p, ApplySettings(p, cfg, t)).inputRate == cfg.receiveRate
    ensures cfg.transmitRate.Some? ==> Observe(p, ApplySettings(p, cfg, t)).outputRate == cfg.transmitRate
  {
    if cfg.receiveRate.Some? {
      SpeedRoundTrip(p, cfg.receiveRate.value);
    }
    if cfg.transmitRate.Some? {
      SpeedRoundTrip(p, cfg.transmitRate.value);
    }
  }

  /** The settings held in `c_cflag` read back as requested. */
  lemma ControlSettingsRoundTrip(p: Platform, cfg: PortConfig, t: Termios)
    requires RatesAvailable(p, cfg) && TimingFits(cfg)
    ensures var o := Observe(p, ApplySettings(p, cfg, t));
      && o.stopBits == cfg.stopBits
      && o.dataBits == cfg.dataBits
      && o.receiverOn
      && (t.cflag & ParityFlags.ParityMask(p) == 0 || cfg.parity == ParityFlags.Odd ==> o.parity == cfg.parity)
  {
    ControlReadBack(p, cfg, t.cflag);
  }

  /** The hardware flow-control toggle reads back as requested. */
  lemma HardwareFlowRoundTrip(p: Platform, cfg: PortConfig, t: Termios)
    requires RatesAvailable(p, cfg) && TimingFits(cfg)
    ensures Observe(p, ApplySettings(p, cfg, t)).hardwareFlow == cfg.useHardwareFlowControl
  {
    HardwareFlowControlReadBack(p, cfg, t.cflag);
    if cfg.useHardwareFlowControl {
    } else {
    }
  }

  /** The settings held in `c_iflag`, `c_lflag` and `c_oflag` read back as
      requested. */
  lemma ModeSettingsRoundTrip(p: Platform, cfg: PortConfig, t: Termios)
    requires RatesAvailable(p, cfg) && TimingFits(cfg)
    ensures var o := Observe(p, ApplySettings(p, cfg, t));
      && o.softwareFlow == cfg.useSoftwareFlowControl
      && o.processOutput == cfg.processOutput
      && !o.crNlMapped && o.rawInput
  {
    InputReadBack(p, cfg, t.iflag);
    LocalFlagsSpec(p, t.lflag);
    OutputFlagsSpec(p, cfg, t.oflag);
  }

  /** MIN reads back from the slot of that name. */
  lemma MinimumBytesRoundTrip(p: Platform, cfg: PortConfig, t: Termios)
    requires RatesAvailable(p, cfg) && TimingFits(cfg)
    ensures Observe(p, ApplySettings(p, cfg, t)).vmin == Some(cfg.minimumBytesToRead as bv8)
  {
    ReadTimingSlots();
    SpecialCharactersByName(p, cfg.minimumBytesToRead as bv8, cfg.timeout as bv8, VMIN);
  }

  /** TIME reads back from the slot of that name. */
  lemma TimeoutRoundTrip(p: Platform, cfg: PortConfig, t: Termios)
    requires RatesAvailable(p, cfg) && TimingFits(cfg)
    ensures Observe(p, ApplySettings(p, cfg, t)).vtime == Some(cfg.timeout as bv8)
  {
    ReadTimingSlots();
    SpecialCharactersByName(p, cfg.minimumBytesToRead as bv8, cfg.timeout as bv8, VTIME);
  }

  /** The control-word half of the read-back. */
  lemma ControlReadBack(p: Platform, cfg: PortConfig, cflag: bv32)
    ensures var r := ControlFlags(p, cfg, cflag);
      && (if r & CSTOPB(p) != 0 then Two else One) == cfg.stopBits
      && DataBitsOf(p, r) == cfg.dataBits
      && (r & HardwareFlowMask(p) == HardwareFlowMask(p)) == cfg.useHardwareFlowControl
      && r & ReceiverMask(p) == ReceiverMask(p)
      && (cflag & ParityFlags.ParityMask(p) == 0 || cfg.parity == ParityFlags.Odd ==> ParityFlags.ParityOf(p, r) == cfg.parity)
  {
    var r := ControlFlags(p, cfg, cflag);
    StopBitsControlReadBack(p, cfg, cflag);
    DataBitsControlReadBack(p, cfg, cflag);
    HardwareFlowControlReadBack(p, cfg, cflag);
    ControlReceiver(p, cfg, cflag);
    ControlParity(p, cfg, cflag);
    ParityReadBack(p, cfg.parity, cflag, r);
  }

  lemma StopBitsControlReadBack(p: Platform, cfg: PortConfig, cflag: bv32)
    ensures (if ControlFlags(p, cfg, cflag) & CSTOPB(p) != 0 then Two else One) == cfg.stopBits
  {
    ControlStopBits(p, cfg, cflag);
    StopBitsReadBack(p, cfg.stopBits, ControlFlags(p, cfg, cflag));
  }

  lemma DataBitsControlReadBack(p: Platform, cfg: PortConfig, cflag: bv32)
    ensures DataBitsOf(p, ControlFlags(p, cfg, cflag)) == cfg.dataBits
  {
    ControlSize(p, cfg, cflag);
    DataBitsReadBack(p, cfg.dataBits, ControlFlags(p, cfg, cflag));
  }

  lemma HardwareFlowControlReadBack(p: Platform, cfg: PortConfig, cflag: bv32)
    ensures (ControlFlags(p, cfg, cflag) & HardwareFlowMask(p) == HardwareFlowMask(p)) == cfg.useHardwareFlowControl
  {
    ControlHardwareFlow(p, cfg, cflag);
    HardwareFlowReadBack(p, cfg.useHardwareFlowControl, ControlFlags(p, cfg, cflag));
  }

  /** The hardware flow toggle read from a word whose flow bits follow it. */
  lemma HardwareFlowReadBack(p: Platform, on: bool, cflag: bv32)
    requires cflag & HardwareFlowMask(p) == (if on then HardwareFlowMask(p) else 0)
    ensures (cflag & HardwareFlowMask(p) == HardwareFlowMask(p)) == on
  {
    if p == Linux {} else {}
  }

  /** The input-word half of the read-back. */
  lemma InputReadBack(p: Platform, cfg: PortConfig, iflag: bv32)
    ensures InputFlags(p, cfg, iflag) & CrNlMask(p) == 0
    ensures (InputFlags(p, cfg, iflag) & SoftwareFlowMask(p) == SoftwareFlowMask(p)) == cfg.useSoftwareFlowControl
  {
    InputNoMapping(p, cfg, iflag);
    InputSoftwareFlow(p, cfg, iflag);
    if p == Linux {} else {}
  }

  /** The stop bits read from a word whose CSTOPB bit follows a setting. */
  lemma StopBitsReadBack(p: Platform, stop: StopBits, cflag: bv32)
    requires cflag & CSTOPB(p) == (if stop == Two then CSTOPB(p) else 0)
    ensures (if cflag & CSTOPB(p) != 0 then Two else One) == stop
  {
  }

  /** The parity read from a word whose parity bits are the old ones OR-ed
      with a setting's value: the setting itself when the old word had no
      parity bits or odd parity was asked for. */
  lemma ParityReadBack(p: Platform, par: ParityFlags.Parity, before: bv32, after: bv32)
    requires after & ParityFlags.ParityMask(p) == (before & ParityFlags.ParityMask(p)) | ParityFlags.ParityValue(p, par)
    ensures before & ParityFlags.ParityMask(p) == 0 || par == ParityFlags.Odd ==> ParityFlags.ParityOf(p, after) == par
  {
    if before & ParityFlags.ParityMask(p) == 0 {
      ParityReadBackFromClear(p, par, before, after);
    } else if par == ParityFlags.Odd {
      ParityReadBackOdd(p, before, after);
    }
  }

  lemma ParityReadBackFromClear(p: Platform, par: ParityFlags.Parity, before: bv32, after: bv32)
    requires after & ParityFlags.ParityMask(p) == (before & ParityFlags.ParityMask(p)) | ParityFlags.ParityValue(p, par)
    requires before & ParityFlags.ParityMask(p) == 0
    ensures ParityFlags.ParityOf(p, after) == par
  {
    MaskWithin(after, ParityFlags.ParityMask(p), PARENB(p));
    MaskWithin(after, ParityFlags.ParityMask(p), PARODD(p));
    match p
    case Linux => match par { case None => case Even => case Odd => }
    case Darwin => match par { case None => case Even => case Odd => }
  }

  lemma ParityReadBackOdd(p: Platform, before: bv32, after: bv32)
    requires after & ParityFlags.ParityMask(p) == (before & ParityFlags.ParityMask(p)) | ParityFlags.ParityValue(p, ParityFlags.Odd)
    ensures ParityFlags.ParityOf(p, after) == ParityFlags.Odd
  {
    MaskWithin(after, ParityFlags.ParityMask(p), PARENB(p));
    MaskWithin(after, ParityFlags.ParityMask(p), PARODD(p));
    if p == Linux {} else {}
  }

  /** The exact condition for the requested parity to read back after OR-ing
      its value into an old word: the old word's parity bits must admit it. */
  lemma ParityReadBackExactly(p: Platform, par: ParityFlags.Parity, before: bv32, after: bv32)
    requires after & ParityFlags.ParityMask(p) == (before & ParityFlags.ParityMask(p)) | ParityFlags.ParityValue(p, par)
    ensures ParityFlags.ParityOf(p, after) == par <==> ParityFlags.Admits(p, par, before)
  {
    var m, v := ParityFlags.ParityMask(p), ParityFlags.ParityValue(p, par);
    ParityFlags.ParityBits(p, par);
    MergedBit(after, before, m, v, PARENB(p), par != ParityFlags.None);
    MergedBit(after, before, m, v, PARODD(p), par == ParityFlags.Odd);
    match p
    case Linux => match par { case None => case Even => case Odd => }
    case Darwin => match par { case None => case Even => case Odd => }
  }

  /** The parity the control step leaves behind is the requested one exactly
      when the old word's parity bits admit it. */
  lemma ControlParityExactly(p: Platform, cfg: PortConfig, cflag: bv32)
    ensures ParityFlags.ParityOf(p, ControlFlags(p, cfg, cflag)) == cfg.parity
      <==> ParityFlags.Admits(p, cfg.parity, cflag)
  {
    ControlParity(p, cfg, cflag);
    ParityReadBackExactly(p, cfg.parity, cflag, ControlFlags(p, cfg, cflag));
  }

  /** The parity read from a word whose old parity bits were both set: odd. */
  lemma ParityStaysOdd(p: Platform, par: ParityFlags.Parity, before: bv32, after: bv32)
    requires after & ParityFlags.ParityMask(p) == (before & ParityFlags.ParityMask(p)) | ParityFlags.ParityValue(p, par)
    requires before & ParityFlags.ParityMask(p) == ParityFlags.ParityMask(p)
    ensures ParityFlags.ParityOf(p, after) == ParityFlags.Odd
  {
    ParityFlags.ParityValueInside(p, par);
    FullMaskStaysFull(after, before, ParityFlags.ParityMask(p), ParityFlags.ParityValue(p, par));
    ParityFlags.OddWhenMaskFull(p, after);
  }

  /** Parity is only ever added: a port whose saved settings select odd
      parity stays odd whatever parity `open` is asked for. */
  lemma OddParitySurvives(p: Platform, cfg: PortConfig, t: Termios)
    requires RatesAvailable(p, cfg) && TimingFits(cfg)
    requires t.cflag & ParityFlags.ParityMask(p) == ParityFlags.ParityMask(p)
    ensures ParityFlags.ParityOf(p, ApplySettings(p, cfg, t).cflag) == ParityFlags.Odd
  {
    assert ApplySettings(p, cfg, t).cflag == ControlFlags(p, cfg, t.cflag);
    OddParityControl(p, cfg, t.cflag);
  }

  /** The requested parity is the one the new record selects exactly when the
      saved record's parity bits admit it. */
  lemma ParityAppliedExactly(p: Platform, cfg: PortConfig, t: Termios)
    requires RatesAvailable(p, cfg) && TimingFits(cfg)
    ensures ParityFlags.ParityOf(p, ApplySettings(p, cfg, t).cflag) == cfg.parity
      <==> ParityFlags.Admits(p, cfg.parity, t.cflag)
  {
    assert ApplySettings(p, cfg, t).cflag == ControlFlags(p, cfg, t.cflag);
    ControlParityExactly(p, cfg, t.cflag);
  }

  /** The `c_cflag` step alone keeps odd parity. */
  lemma OddParityControl(p: Platform, cfg: PortConfig, cflag: bv32)
    requires cflag & ParityFlags.ParityMask(p) == ParityFlags.ParityMask(p)
    ensures ParityFlags.ParityOf(p, ControlFlags(p, cfg, cflag)) == ParityFlags.Odd
  {
    ControlParity(p, cfg, cflag);
    ParityStaysOdd(p, cfg.parity, cflag, ControlFlags(p, cfg, cflag));
  }

  /** Applying the same configuration twice gives the same record as once. */
  lemma {:induction false} ApplySettingsIdempotent(p: Platform, cfg: PortConfig, t: Termios)
    requires RatesAvailable(p, cfg) && TimingFits(cfg)
    ensures ApplySettings(p, cfg, ApplySettings(p, cfg, t)) == ApplySettings(p, cfg, t)
  {
    var once := ApplySettings(p, cfg, t);
    ControlIdempotent(p, cfg, t.cflag);
    InputIdempotent(p, cfg, t.iflag);
    LocalIdempotent(p, t.lflag);
    OutputIdempotent(p, cfg, t.oflag);
  }

  /** The `c_cflag` step is idempotent: every written bit is determined by the
      configuration alone, except parity, which is OR-ed and so stable. */
  lemma ControlIdempotent(p: Platform, cfg: PortConfig, cflag: bv32)
    ensures ControlFlags(p, cfg, ControlFlags(p, cfg, cflag)) == ControlFlags(p, cfg, cflag)
  {
    var once := ControlFlags(p, cfg, cflag);
    var twice := ControlFlags(p, cfg, once);
    ControlInsideStable(p, cfg, cflag);
    ControlFrame(p, cfg, once);
    AgreeInsideAndOutside(twice, once, ControlMask(p));
  }

  /** The second application writes the same bits inside the mask as the first. */
  lemma ControlInsideStable(p: Platform, cfg: PortConfig, cflag: bv32)
    ensures ControlFlags(p, cfg, ControlFlags(p, cfg, cflag)) & ControlMask(p) == ControlFlags(p, cfg, cflag) & ControlMask(p)
  {
    var once := ControlFlags(p, cfg, cflag);
    var twice := ControlFlags(p, cfg, once);
    var pm := ParityFlags.ParityMask(p);
    var pv := ParityFlags.ParityValue(p, cfg.parity);
    ControlParity(p, cfg, cflag);
    ControlParity(p, cfg, once);
    OrTwice(cflag & pm, pv);
    assert twice & pm == once & pm;
    ControlStopBits(p, cfg, cflag);
    ControlStopBits(p, cfg, once);
    ControlSize(p, cfg, cflag);
    ControlSize(p, cfg, once);
    ControlHardwareFlow(p, cfg, cflag);
    ControlHardwareFlow(p, cfg, once);
    ControlReceiver(p, cfg, cflag);
    ControlReceiver(p, cfg, once);
    MaskByUnion5(once, pm, CSTOPB(p), CSIZE(p), HardwareFlowMask(p), ReceiverMask(p));
    MaskByUnion5(twice, pm, CSTOPB(p), CSIZE(p), HardwareFlowMask(p), ReceiverMask(p));
  }

  lemma InputIdempotent(p: Platform, cfg: PortConfig, iflag: bv32)
    ensures InputFlags(p, cfg, InputFlags(p, cfg, iflag)) == InputFlags(p, cfg, iflag)
  {
    var once := InputFlags(p, cfg, iflag);
    var twice := InputFlags(p, cfg, once);
    InputNoMapping(p, cfg, iflag);
    InputNoMapping(p, cfg, once);
    InputSoftwareFlow(p, cfg, iflag);
    InputSoftwareFlow(p, cfg, once);
    InputFrame(p, cfg, once);
    MaskByUnion2(once, CrNlMask(p), SoftwareFlowMask(p));
    MaskByUnion2(twice, CrNlMask(p), SoftwareFlowMask(p));
    AgreeInsideAndOutside(twice, once, InputMask(p));
  }

  lemma LocalIdempotent(p: Platform, lflag: bv32)
    ensures LocalFlags(p, LocalFlags(p, lflag)) == LocalFlags(p, lflag)
  {
  }

  lemma OutputIdempotent(p: Platform, cfg: PortConfig, oflag: bv32)
    ensures OutputFlags(p, cfg, OutputFlags(p, cfg, oflag)) == OutputFlags(p, cfg, oflag)
  {
    if cfg.processOutput {
      OrTwice(oflag, OPOST(p));
    } else {
      ClearTwice(oflag, OPOST(p));
    }
  }
}

=== FILE: serial_error.dfy ===
/** The error kinds the serial port throws, with their `Int32` raw values. */
module SerialErrors {
  import opened Wrappers

  datatype SerialError =
    | FailedToOpen          // open() could not acquire the device
    | MustReceiveOrTransmit // neither a receive nor a transmit baud rate was given
    | PortIsClosed          // open was never called, or it failed
    | DeviceNotConnected    // the device node's link count is no longer one

  /** The cases in declaration order. */
  const AllErrors: seq<SerialError> :=
    [FailedToOpen, MustReceiveOrTransmit, PortIsClosed, DeviceNotConnected]

  /** The raw value of each case: `failedToOpen` is pinned to -1, the error
      return of open(), and the later cases count on implicitly from there,
      so a case's raw value is its position in declaration order minus one. */
  function RawValue(e: SerialError): (r: int)
    ensures -1 <= r <= 2
    ensures r == -1 <==> e == FailedToOpen
    ensures AllErrors[r + 1] == e
    ensures FromRawValue(r) == Some(e)
  {
    match e
    case FailedToOpen => -1
    case MustReceiveOrTransmit => 0
    case PortIsClosed => 1
    case DeviceNotConnected => 2
  }

  /** The failable initialiser `SerialError(rawValue:)` every raw-valued enum has. */
  function FromRawValue(v: int): (r: Option<SerialError>)
    ensures r.Some? <==> -1 <= v <= 2
  {
    if v == -1 then Some(FailedToOpen)
    else if v == 0 then Some(MustReceiveOrTransmit)
    else if v == 1 then Some(PortIsClosed)
    else if v == 2 then Some(DeviceNotConnected)
    else None
  }

  /** Each case's raw value is one more than that of the case declared
      before it. */
  lemma ErrorsCountOn(i: nat)
    requires 0 < i < |AllErrors|
    ensures RawValue(AllErrors[i]) == RawValue(AllErrors[i - 1]) + 1
  {
  }

  /** Distinct cases have distinct raw values. */
  lemma RawValueInjective(a: SerialError, b: SerialError)
    requires RawValue(a) == RawValue(b)
    ensures a == b
  {
    assert Some(a) == FromRawValue(RawValue(a)) == FromRawValue(RawValue(b)) == Some(b);
  }

  /** Reading a raw value back and re-encoding it gives the same number. */
  lemma FromRawValueRoundTrip(v: int)
    requires FromRawValue(v).Some?
    ensures RawValue(FromRawValue(v).value) == v
  {
  }
}

=== FILE: serial_port.dfy ===
/** The serial port handle: a device path and the file descriptor `open`
    stores, with the operations that use it. The operating system is not
    modelled; every system call becomes an argument standing for what the
    call returned (`open`, `tcgetattr`, `fstat`, `read`, `write`), and the
    trace an operation returns records what it handed to the system. */
module SerialPort {
  import opened Wrappers
  import opened Termios
  import opened SerialErrors
  import opened PortSettings
  import ParityFlags
  import DataBitsFlags
  import opened BaudRates
  import opened StopBitsFlags

  // ---- the handle ----

  /** The state of a port: its path, fixed at creation, and the descriptor of
      the open device, absent while the port is closed. */
  datatype Handle = Handle(path: string, fd: Option<int>)

  /** `init(path:)`: a port starts closed. */
  function NewHandle(path: string): (h: Handle)
    ensures h.path == path && h.fd.None?
  {
    Handle(path, None)
  }

  predicate IsOpen(h: Handle) { h.fd.Some? }

  // ---- choosing the access mode ----

  datatype AccessMode = ReadOnly | WriteOnly | ReadWrite

  predicate Reads(m: AccessMode) { m != WriteOnly }

  predicate Writes(m: AccessMode) { m != ReadOnly }

  /** The access mode follows from which directions have a rate: a receive
      rate asks for reading, a transmit rate for writing, and a port that does
      neither is refused. */
  function SelectAccessMode(cfg: PortConfig): (r: Result<AccessMode, SerialError>)
    ensures r.Failure? <==> cfg.receiveRate.None? && cfg.transmitRate.None?
    ensures r.Failure? ==> r.error == MustReceiveOrTransmit
    ensures r.Success? ==> (Reads(r.value) <==> cfg.receiveRate.Some?)
    ensures r.Success? ==> (Writes(r.value) <==> cfg.transmitRate.Some?)
  {
    if cfg.receiveRate.Some? && cfg.transmitRate.Some? then Success(ReadWrite)
    else if cfg.receiveRate.Some? then Success(ReadOnly)
    else if cfg.transmitRate.Some? then Success(WriteOnly)
    else Failure(MustReceiveOrTransmit)
  }

  function AccessBits(m: AccessMode): bv32
  {
    match m
    case ReadOnly => O_RDONLY
    case WriteOnly => O_WRONLY
    case ReadWrite => O_RDWR
  }

  /** The flags `openPort` passes to open(): the access mode, never becoming
      the controlling terminal, and on Darwin an exclusive lock. */
  function OpenFlags(p: Platform, m: AccessMode): bv32
  {
    if p == Linux then AccessBits(m) | O_NOCTTY(p)
    else AccessBits(m) | O_NOCTTY(p) | O_EXLOCK
  }

  /** The access mode the access-mode field of an open() flag word selects. */
  function AccessModeOf(flags: bv32): (r: Option<AccessMode>)
    ensures r.Some? <==> flags & O_ACCMODE != O_ACCMODE
  {
    var a := flags & O_ACCMODE;
    if a == O_RDONLY then Some(ReadOnly)
    else if a == O_WRONLY then Some(WriteOnly)
    else if a == O_RDWR then Some(ReadWrite)
    else None
  }

  /** The flag word carries the access mode it was built from, never asks to
      become the controlling terminal, asks for the exclusive lock exactly on
      Darwin, and sets no other flag. */
  lemma OpenFlagsSpec(p: Platform, m: AccessMode)
    ensures AccessModeOf(OpenFlags(p, m)) == Some(m)
    ensures OpenFlags(p, m) & O_NOCTTY(p) == O_NOCTTY(p)
    ensures OpenFlags(p, m) & O_EXLOCK != 0 <==> p == Darwin
    ensures OpenFlags(p, m) & !(O_ACCMODE | O_NOCTTY(p) | O_EXLOCK) == 0
  {
    match p
    case Linux => match m { case ReadOnly => case WriteOnly => case ReadWrite => }
    case Darwin => match m { case ReadOnly => case WriteOnly => case ReadWrite => }
  }

  // ---- open ----

  /** What the system returns during `open`: the result of open() and the
      record tcgetattr() reads from the device. */
  datatype OpenOracle = OpenOracle(openResult: int, current: Termios)

  /** The handle after `open`, the flags open() was called with, if it was
      called, the record handed to tcsetattr(), if one was, and whether
      `open` returned or threw. */
  datatype OpenTrace = OpenTrace(
    handle: Handle,
    openCall: Option<bv32>,
    committed: Option<Termios>,
    outcome: Outcome<SerialError>)

  /** A configuration that can reach open(): it has a direction. */
  predicate HasDirection(cfg: PortConfig)
  {
    cfg.receiveRate.Some? || cfg.transmitRate.Some?
  }

  /** `open`: choose the access mode, open the device, and unless open()
      failed commit the transformed settings. Without a direction nothing
      happens; when open() fails the descriptor is dropped and nothing is
      committed; otherwise the new descriptor replaces the old one, which
      is not closed. */
  function Open(p: Platform, h: Handle, cfg: PortConfig, os: OpenOracle): (r: OpenTrace)
    requires RatesAvailable(p, cfg)
    requires HasDirection(cfg) && os.openResult != -1 ==> TimingFits(cfg)
    ensures r.handle.path == h.path
    ensures r.outcome.Pass? <==> HasDirection(cfg) && os.openResult != -1
    ensures r.outcome == Fail(MustReceiveOrTransmit) <==> !HasDirection(cfg)
    ensures r.outcome == Fail(FailedToOpen) <==> HasDirection(cfg) && os.openResult == -1
    ensures !HasDirection(cfg) ==> r.handle == h && r.openCall.None? && r.committed.None?
    ensures r.openCall.Some? <==> HasDirection(cfg)
    ensures r.committed.Some? <==> r.outcome.Pass?
    ensures r.openCall.Some? ==>
      SelectAccessMode(cfg).Success? && r.openCall.value == OpenFlags(p, SelectAccessMode(cfg).value)
    ensures r.handle.fd.Some? <==> r.outcome.Pass? || (!HasDirection(cfg) && h.fd.Some?)
    ensures r.outcome.Pass? ==> r.handle.fd == Some(os.openResult)
    ensures r.outcome.Pass? ==> r.committed == Some(ApplySettings(p, cfg, os.current))
  {
    match SelectAccessMode(cfg)
    case Failure(e) => OpenTrace(h, None, None, Fail(e))
    case Success(mode) =>
      var flags := OpenFlags(p, mode);
      if os.openResult == RawValue(FailedToOpen) then
        OpenTrace(Handle(h.path, None), Some(flags), None, Fail(FailedToOpen))
      else
        OpenTrace(Handle(h.path, Some(os.openResult)), Some(flags),
                  Some(ApplySettings(p, cfg, os.current)), Pass)
  }

  /** open() is asked for reading exactly when a receive rate is given, for
      writing exactly when a transmit rate is given, and never to become the
      controlling terminal. */
  lemma OpenRequestsDirections(p: Platform, h: Handle, cfg: PortConfig, os: OpenOracle)
    requires RatesAvailable(p, cfg)
    requires HasDirection(cfg) && os.openResult != -1 ==> TimingFits(cfg)
    ensures var r := Open(p, h, cfg, os);
      r.openCall.Some? ==>
        && AccessModeOf(r.openCall.value).Some?
        && (Reads(AccessModeOf(r.openCall.value).value) <==> cfg.receiveRate.Some?)
        && (Writes(AccessModeOf(r.openCall.value).value) <==> cfg.transmitRate.Some?)
        && r.openCall.value & O_NOCTTY(p) == O_NOCTTY(p)
  {
    var s := SelectAccessMode(cfg);
    if s.Success? {
      OpenFlagsSpec(p, s.value);
    }
  }

  /** open() is asked for the exclusive lock exactly on Darwin, and for no
      flag beyond the access mode, O_NOCTTY and that lock. */
  lemma OpenRequestsNothingElse(p: Platform, h: Handle, cfg: PortConfig, os: OpenOracle)
    requires RatesAvailable(p, cfg)
    requires HasDirection(cfg) && os.openResult != -1 ==> TimingFits(cfg)
    ensures var r := Open(p, h, cfg, os);
      r.openCall.Some? ==>
        && (r.openCall.value & O_EXLOCK != 0 <==> p == Darwin)
        && r.openCall.value & !(O_ACCMODE | O_NOCTTY(p) | O_EXLOCK) == 0
  {
    var r := Open(p, h, cfg, os);
    if r.openCall.Some? {
      var m := SelectAccessMode(cfg).value;
      OpenFlagsSpec(p, m);
      assert r.openCall.value == OpenFlags(p, m);
    }
  }

  /** A successful `open` commits a record that reads back as the requested
      line settings (parity under the same proviso as the settings
      transform: the old record had no parity bits, or odd was asked for). */
  lemma OpenCommitsSettings(p: Platform, h: Handle, cfg: PortConfig, os: OpenOracle)
    requires RatesAvailable(p, cfg)
    requires HasDirection(cfg) && os.openResult != -1 ==> TimingFits(cfg)
    ensures var r := Open(p, h, cfg, os);
      r.committed.Some? ==>
        var o := Observe(p, r.committed.value);
        && (cfg.receiveRate.Some? ==> o.inputRate == cfg.receiveRate)
        && (cfg.transmitRate.Some? ==> o.outputRate == cfg.transmitRate)
        && o.stopBits == cfg.stopBits
        && o.dataBits == cfg.dataBits
        && o.hardwareFlow == cfg.useHardwareFlowControl
        && o.softwareFlow == cfg.useSoftwareFlowControl
        && o.processOutput == cfg.processOutput
        && !o.crNlMapped && o.receiverOn && o.rawInput
        && o.vmin == Some(cfg.minimumBytesToRead as bv8)
        && o.vtime == Some(cfg.timeout as bv8)
        && (os.current.cflag & ParityFlags.ParityMask(p) == 0 || cfg.parity == ParityFlags.Odd ==> o.parity == cfg.parity)
  {
    var r := Open(p, h, cfg, os);
    if r.committed.Some? {
      assert r.committed.value == ApplySettings(p, cfg, os.current);
      SettingsRoundTrip(p, cfg, os.current);
    }
  }

  /** `open` called with only the rates leaves the line at eight data bits,
      one stop bit, no flow control, raw input and output, and reads that
      return whatever is waiting (MIN 1, TIME 0); no parity, unless the
      device's saved settings already had parity bits. */
  lemma DefaultOpenCommitsRaw8N1(p: Platform, h: Handle, receiveRate: Option<BaudRate>,
                                 transmitRate: Option<BaudRate>, os: OpenOracle)
    requires RatesAvailable(p, DefaultConfig(receiveRate, transmitRate))
    ensures var r := Open(p, h, DefaultConfig(receiveRate, transmitRate), os);
      r.committed.Some? ==>
        var o := Observe(p, r.committed.value);
        && o.dataBits == DataBitsFlags.Eight && o.stopBits == One
        && !o.hardwareFlow && !o.softwareFlow && !o.processOutput
        && o.rawInput && !o.crNlMapped && o.receiverOn
        && o.vmin == Some(1) && o.vtime == Some(0)
        && (os.current.cflag & ParityFlags.ParityMask(p) == 0 ==> o.parity == ParityFlags.None)
  {
    OpenCommitsSettings(p, h, DefaultConfig(receiveRate, transmitRate), os);
  }

  // ---- close ----

  /** The handle after `close`, and the descriptor close() was called on, if any. */
  datatype CloseTrace = CloseTrace(handle: Handle, closed: Option<int>)

  /** `close`: release the descriptor, if there is one, and forget it. */
  function Close(h: Handle): (r: CloseTrace)
    ensures r.handle.path == h.path && !IsOpen(r.handle)
    ensures r.closed == h.fd
  {
    match h.fd
    case None => CloseTrace(h, None)
    case Some(fd) => CloseTrace(Handle(h.path, None), Some(fd))
  }

  /** Closing twice is closing once: the second call changes nothing and
      makes no system call. */
  lemma CloseIdempotent(h: Handle)
    ensures Close(Close(h).handle) == CloseTrace(Close(h).handle, None)
  {
  }

  // ---- reading ----

  /** What read() finds on the device: the bytes waiting to be read, or an
      error. */
  datatype OsRead = Delivered(available: seq<bv8>) | ReadError

  /** The system's answers during one read: the link count fstat() reports
      for the device node, and what read() finds. */
  datatype ReadReply = ReadReply(nlink: nat, data: OsRead)

  function Min(a: int, b: int): int { if a <= b then a else b }

  function Max(a: int, b: int): int { if a <= b then b else a }

  /** The return value of read() for a request of `count` bytes: as many
      bytes as are waiting, up to `count`, or -1 on error. */
  function OsReadReturn(count: nat, d: OsRead): (r: int)
    ensures -1 <= r <= count
    ensures r == -1 <==> d.ReadError?
    ensures d.Delivered? ==> r <= |d.available|
  {
    match d
    case ReadError => -1
    case Delivered(available) => Min(count, |available|)
  }

  /** The internal `readBytes(into:count:)`: refuse a closed port, refuse a
      device whose node is no longer linked exactly once, and otherwise read,
      counting a read() error as zero bytes. The result is the bytes written
      into the caller's buffer; their number is the value returned. */
  function RawRead(h: Handle, count: nat, reply: ReadReply): (r: Result<seq<bv8>, SerialError>)
    ensures r == Failure(PortIsClosed) <==> !IsOpen(h)
    ensures r == Failure(DeviceNotConnected) <==> IsOpen(h) && reply.nlink != 1
    ensures r.Success? <==> IsOpen(h) && reply.nlink == 1
    ensures r.Success? ==> |r.value| <= count
    ensures r.Success? && reply.data.ReadError? ==> r.value == []
    ensures r.Success? && reply.data.Delivered? ==>
      && r.value <= reply.data.available
      && (|r.value| == count || r.value == reply.data.available)
  {
    if h.fd.None? then Failure(PortIsClosed)
    else if reply.nlink != 1 then Failure(DeviceNotConnected)
    else
      var n := Max(0, OsReadReturn(count, reply.data));
      match reply.data
      case ReadError => Success([])
      case Delivered(available) => Success(available[..n])
  }

  /** `readByte` as written: the guard is inverted. When read() delivered
      the byte the call answers "no byte"; when it delivered nothing the call
      answers the never-written first byte of its buffer, `uninitialised`. */
  function ReadByteAsWritten(h: Handle, reply: ReadReply, uninitialised: bv8): (r: Result<Option<bv8>, SerialError>)
    ensures r.Failure? <==> !IsOpen(h) || reply.nlink != 1
    ensures r.Failure? ==> r.error == RawRead(h, 1, reply).error
    ensures r.Success? ==> (r.value.Some? <==> RawRead(h, 1, reply) == Success([]))
    ensures r.Success? && r.value.Some? ==> r.value.value == uninitialised
  {
    match RawRead(h, 1, reply)
    case Failure(e) => Failure(e)
    case Success(bytes) => if |bytes| == 0 then Success(Some(uninitialised)) else Success(None)
  }

  /** A byte that is waiting is lost: read() consumes it, and the call
      reports that no byte was available. */
  lemma ReadByteLosesWaitingByte(h: Handle, b: bv8, rest: seq<bv8>, uninitialised: bv8)
    requires IsOpen(h)
    ensures RawRead(h, 1, ReadReply(1, Delivered([b] + rest))) == Success([b])
    ensures ReadByteAsWritten(h, ReadReply(1, Delivered([b] + rest)), uninitialised) == Success(None)
  {
    assert ([b] + rest)[..1] == [b];
  }

  /** With nothing waiting, the call invents a byte. */
  lemma ReadByteInventsByte(h: Handle, uninitialised: bv8)
    requires IsOpen(h)
    ensures ReadByteAsWritten(h, ReadReply(1, Delivered([])), uninitialised) == Success(Some(uninitialised))
  {
  }

  /** `readByte` as documented: the waiting byte, or no byte when none is
      waiting; the closed and disconnected errors as for every read. */
  function ReadByte(h: Handle, reply: ReadReply): (r: Result<Option<bv8>, SerialError>)
    ensures r.Failure? <==> !IsOpen(h) || reply.nlink != 1
    ensures r.Failure? ==> r.error == RawRead(h, 1, reply).error
    ensures r.Success? ==>
      (r.value.Some? <==> reply.data.Delivered? && |reply.data.available| > 0)
    ensures r.Success? && r.value.Some? ==> r.value.value == reply.data.available[0]
  {
    match RawRead(h, 1, reply)
    case Failure(e) => Failure(e)
    case Success(bytes) => if |bytes| == 1 then Success(Some(bytes[0])) else Success(None)
  }

  /** `Data.prefix(n)`: the first `n` elements, or all of them when there are fewer. */
  function Prefix(s: seq<bv8>, n: nat): (r: seq<bv8>)
    ensures r <= s
    ensures |r| == Min(n, |s|)
  {
    s[..Min(n, |s|)]
  }

  /** `readBytes(count:)` as written: the buffer is created with a capacity
      but no elements, so the prefix taken of it is always empty, even when
      read() consumed bytes from the device. */
  function ReadBytesAsWritten(h: Handle, count: nat, reply: ReadReply): (r: Result<seq<bv8>, SerialError>)
    ensures r.Failure? <==> !IsOpen(h) || reply.nlink != 1
    ensures r.Failure? ==> r == RawRead(h, count, reply)
    ensures r.Success? ==> r.value == []
  {
    var data: seq<bv8> := [];
    match RawRead(h, count, reply)
    case Failure(e) => Failure(e)
    case Success(bytes) => Success(Prefix(data, |bytes|))
  }

  /** Bytes that were waiting are consumed and not returned. */
  lemma ReadBytesDropsDelivered(h: Handle)
    requires IsOpen(h)
    ensures RawRead(h, 3, ReadReply(1, Delivered([1, 2, 3]))) == Success([1, 2, 3])
    ensures ReadBytesAsWritten(h, 3, ReadReply(1, Delivered([1, 2, 3]))) == Success([])
  {
    var bytes: seq<bv8> := [1, 2, 3];
    assert bytes[..3] == bytes;
  }

  /** `readBytes(count:)` as documented: the waiting bytes, up to `count`. */
  function ReadBytes(h: Handle, count: nat, reply: ReadReply): (r: Result<seq<bv8>, SerialError>)
    ensures r.Failure? <==> !IsOpen(h) || reply.nlink != 1
    ensures r.Failure? ==> r == RawRead(h, count, reply)
    ensures r.Success? ==> |r.value| <= count
    ensures r.Success? && reply.data.Delivered? ==>
      r.value == reply.data.available[..Min(count, |reply.data.available|)]
    ensures r.Success? && reply.data.ReadError? ==> r.value == []
  {
    match RawRead(h, count, reply)
    case Failure(e) => Failure(e)
    case Success(bytes) => Success(Prefix(bytes, |bytes|))
  }

  // ---- writing ----

  /** What write() does with the bytes: accepts the first `n` of them, or fails. */
  datatype OsWrite = Accepted(n: nat) | WriteError

  /** Both `writeBytes` overloads: refuse a closed port, and otherwise hand the
      bytes to write() and pass its return value through, -1 included. The
      link count is not checked. */
  function WriteBytes(h: Handle, data: seq<bv8>, w: OsWrite): (r: Result<int, SerialError>)
    requires w.Accepted? ==> w.n <= |data|
    ensures r.Failure? <==> !IsOpen(h)
    ensures r.Failure? ==> r.error == PortIsClosed
    ensures r.Success? ==> -1 <= r.value <= |data|
    ensures r.Success? ==> (r.value < 0 <==> w.WriteError?)
    ensures r.Success? && w.Accepted? ==> r.value == w.n
    ensures r.Success? && w.WriteError? ==> r.value == -1
  {
    if h.fd.None? then Failure(PortIsClosed)
    else match w
      case Accepted(n) => Success(n as int)
      case WriteError => Success(-1)
  }

  // ---- across operations ----

  /** Once closed, every read that reaches read() and every write is refused
      as closed, whatever the device reports. */
  lemma ClosedPortRefuses(h: Handle, count: nat, reply: ReadReply, data: seq<bv8>, w: OsWrite, u: bv8)
    requires w.Accepted? ==> w.n <= |data|
    ensures var c := Close(h).handle;
      && RawRead(c, count, reply) == Failure(PortIsClosed)
      && ReadByte(c, reply) == Failure(PortIsClosed)
      && ReadByteAsWritten(c, reply, u) == Failure(PortIsClosed)
      && ReadBytes(c, count, reply) == Failure(PortIsClosed)
      && ReadBytesAsWritten(c, count, reply) == Failure(PortIsClosed)
      && WriteBytes(c, data, w) == Failure(PortIsClosed)
  {
  }

  /** A port that `open` left with a descriptor can be read while its device
      stays linked, and written regardless. */
  lemma OpenedPortServes(p: Platform, h: Handle, cfg: PortConfig, os: OpenOracle,
                         count: nat, reply: ReadReply, data: seq<bv8>, w: OsWrite)
    requires RatesAvailable(p, cfg)
    requires HasDirection(cfg) && os.openResult != -1 ==> TimingFits(cfg)
    requires w.Accepted? ==> w.n <= |data|
    requires Open(p, h, cfg, os).outcome.Pass?
    ensures var o := Open(p, h, cfg, os).handle;
      && (RawRead(o, count, reply).Success? <==> reply.nlink == 1)
      && (reply.nlink != 1 ==> RawRead(o, count, reply) == Failure(DeviceNotConnected))
      && WriteBytes(o, data, w).Success?
  {
  }

  /** A failed open leaves the port closed even when it was open before. */
  lemma FailedOpenCloses(p: Platform, h: Handle, cfg: PortConfig, os: OpenOracle, count: nat, reply: ReadReply)
    requires RatesAvailable(p, cfg)
    requires HasDirection(cfg) && os.openResult == -1
    ensures Open(p, h, cfg, os).outcome == Fail(FailedToOpen)
    ensures RawRead(Open(p, h, cfg, os).handle, count, reply) == Failure(PortIsClosed)
  {
  }
}

=== FILE: stop_bits.dfy ===
/** The number of stop bits. `StopBits` is declared elsewhere in the library;
    `open` uses exactly these two cases. */
module StopBitsFlags {

  datatype StopBits = One | Two
}

=== FILE: termios.dfy ===
/** The slice of the POSIX terminal interface (General Terminal Interface,
    chapter 11 of the POSIX.1 Base Definitions) the serial port touches: the
    attribute record, the mode bits it sets or clears, the special-character
    table layout, and the open() flags.

    The library refers to the platform header constants by name; the values
    below are those of Linux (asm-generic termbits.h and fcntl.h, as used on
    x86 and ARM) and of Darwin (sys/termios.h and sys/fcntl.h). */
module Termios {
  import opened Wrappers

  /** The two platform families the library builds for. */
  datatype Platform = Linux | Darwin

  /** A `termios` record: four mode words, the special-character table, and the
      input and output speed codes. `tcflag_t` is 32 bits wide on Linux; every
      bit this model touches lies in its low 32 bits on Darwin too. */
  datatype Termios = Termios(
    iflag: bv32,
    oflag: bv32,
    cflag: bv32,
    lflag: bv32,
    cc: seq<bv8>,
    ispeed: nat,
    ospeed: nat)

  // ---- c_iflag (section 11.2.2) ----

  function INLCR(p: Platform): bv32 { 0x40 }
  function IGNCR(p: Platform): bv32 { 0x80 }
  function ICRNL(p: Platform): bv32 { 0x100 }
  function IXON(p: Platform): bv32 { if p == Linux then 0x400 else 0x200 }
  function IXANY(p: Platform): bv32 { 0x800 }
  function IXOFF(p: Platform): bv32 { if p == Linux then 0x1000 else 0x400 }

  // ---- c_oflag (section 11.2.3) ----

  function OPOST(p: Platform): bv32 { 0x1 }

  // ---- c_cflag (section 11.2.4), plus the flow-control extensions ----

  function CSIZE(p: Platform): bv32 { if p == Linux then 0x30 else 0x300 }
  function CS5(p: Platform): bv32 { 0x0 }
  function CS6(p: Platform): bv32 { if p == Linux then 0x10 else 0x100 }
  function CS7(p: Platform): bv32 { if p == Linux then 0x20 else 0x200 }
  function CS8(p: Platform): bv32 { if p == Linux then 0x30 else 0x300 }
  function CSTOPB(p: Platform): bv32 { if p == Linux then 0x40 else 0x400 }
  function CREAD(p: Platform): bv32 { if p == Linux then 0x80 else 0x800 }
  function PARENB(p: Platform): bv32 { if p == Linux then 0x100 else 0x1000 }
  function PARODD(p: Platform): bv32 { if p == Linux then 0x200 else 0x2000 }
  function CLOCAL(p: Platform): bv32 { if p == Linux then 0x800 else 0x8000 }
  /** Linux only: RTS/CTS flow control in one bit. */
  const CRTSCTS: bv32 := 0x8000_0000
  /** Darwin only: CTS flow control of output. */
  const CCTS_OFLOW: bv32 := 0x1_0000
  /** Darwin only: RTS flow control of input. */
  const CRTS_IFLOW: bv32 := 0x2_0000

  // ---- c_lflag (section 11.2.5) ----

  function ISIG(p: Platform): bv32 { if p == Linux then 0x1 else 0x80 }
  function ICANON(p: Platform): bv32 { if p == Linux then 0x2 else 0x100 }
  function ECHO(p: Platform): bv32 { 0x8 }
  function ECHOE(p: Platform): bv32 { if p == Linux then 0x10 else 0x2 }

  // ---- open() flags ----

  const O_RDONLY: bv32 := 0
  const O_WRONLY: bv32 := 1
  const O_RDWR: bv32 := 2
  const O_ACCMODE: bv32 := 3
  function O_NOCTTY(p: Platform): bv32 { if p == Linux then 0x100 else 0x2_0000 }
  /** Darwin only: take an exclusive advisory lock while opening. */
  const O_EXLOCK: bv32 := 0x20

  // ---- the special-character table (section 11.2.6) ----

  /** The names of the `c_cc` slots. `Spare(n)` is the n-th unnamed slot. */
  datatype CcSlot =
    | VINTR | VQUIT | VERASE | VKILL | VEOF | VTIME | VMIN | VSWTC
    | VSTART | VSTOP | VSUSP | VEOL | VREPRINT | VDISCARD | VWERASE
    | VLNEXT | VEOL2 | VDSUSP | VSTATUS | Spare(n: nat)

  /** The order of the slots in `c_cc` on Linux. */
  const LinuxCcLayout: seq<CcSlot> :=
    [VINTR, VQUIT, VERASE, VKILL, VEOF, VTIME, VMIN, VSWTC, VSTART, VSTOP,
     VSUSP, VEOL, VREPRINT, VDISCARD, VWERASE, VLNEXT, VEOL2,
     Spare(1), Spare(2), Spare(3), Spare(4), Spare(5), Spare(6), Spare(7),
     Spare(8), Spare(9), Spare(10), Spare(11), Spare(12), Spare(13),
     Spare(14), Spare(15)]

  /** The order of the slots in `c_cc` on Darwin. */
  const DarwinCcLayout: seq<CcSlot> :=
    [VEOF, VEOL, VEOL2, VERASE, VWERASE, VKILL, VREPRINT, Spare(1),
     VINTR, VQUIT, VSUSP, VDSUSP, VSTART, VSTOP, VLNEXT, VDISCARD,
     VMIN, VTIME, VSTATUS, Spare(0)]

  function CcLayout(p: Platform): seq<CcSlot>
  {
    if p == Linux then LinuxCcLayout else DarwinCcLayout
  }

  /** NCCS, the number of slots in `c_cc`. */
  function NCCS(p: Platform): nat { if p == Linux then 32 else 20 }

  /** Where each named slot sits in `c_cc` (the `V*` index constants of the
      platform headers); `None` for a name the platform does not have. */
  function CcIndex(p: Platform, s: CcSlot): Option<nat>
  {
    match p
    case Linux =>
      (match s
       case VINTR => Some(0)     case VQUIT => Some(1)     case VERASE => Some(2)
       case VKILL => Some(3)     case VEOF => Some(4)      case VTIME => Some(5)
       case VMIN => Some(6)      case VSWTC => Some(7)     case VSTART => Some(8)
       case VSTOP => Some(9)     case VSUSP => Some(10)    case VEOL => Some(11)
       case VREPRINT => Some(12) case VDISCARD => Some(13) case VWERASE => Some(14)
       case VLNEXT => Some(15)   case VEOL2 => Some(16)
       case VDSUSP => None       case VSTATUS => None
       case Spare(n) => if 1 <= n <= 15 then Some(16 + n) else None)
    case Darwin =>
      (match s
       case VEOF => Some(0)      case VEOL => Some(1)      case VEOL2 => Some(2)
       case VERASE => Some(3)    case VWERASE => Some(4)   case VKILL => Some(5)
       case VREPRINT => Some(6)  case VINTR => Some(8)     case VQUIT => Some(9)
       case VSUSP => Some(10)    case VDSUSP => Some(11)   case VSTART => Some(12)
       case VSTOP => Some(13)    case VLNEXT => Some(14)   case VDISCARD => Some(15)
       case VMIN => Some(16)     case VTIME => Some(17)    case VSTATUS => Some(18)
       case VSWTC => None
       case Spare(n) => if n == 1 then Some(7) else if n == 0 then Some(19) else None)
  }

  /** The slot at each position of a layout is indexed at that position. */
  lemma LayoutToIndex(p: Platform)
    ensures |CcLayout(p)| == NCCS(p)
    ensures forall i :: 0 <= i < |CcLayout(p)| ==> CcIndex(p, CcLayout(p)[i]) == Some(i)
  {
    if p == Linux {
      LinuxLayoutToIndex();
    } else {
      DarwinLayoutToIndex();
    }
  }

  lemma LinuxLayoutToIndex()
    ensures |LinuxCcLayout| == 32
    ensures forall i :: 0 <= i < |LinuxCcLayout| ==> CcIndex(Linux, LinuxCcLayout[i]) == Some(i)
  {
    LinuxNamedSlots();
    LinuxSpareSlots();
  }

  lemma LinuxNamedSlots()
    ensures forall i :: 0 <= i < 17 ==> CcIndex(Linux, LinuxCcLayout[i]) == Some(i)
  {
    var l := LinuxCcLayout;
    forall i | 0 <= i < 17
      ensures CcIndex(Linux, l[i]) == Some(i)
    {
      // one case per position, so each step compares a single slot
      if i == 0 {} else if i == 1 {} else if i == 2 {} else if i == 3 {} else
      if i == 4 {} else if i == 5 {} else if i == 6 {} else if i == 7 {} else
      if i == 8 {} else if i == 9 {} else if i == 10 {} else if i == 11 {} else
      if i == 12 {} else if i == 13 {} else if i == 14 {} else if i == 15 {} else {}
    }
  }

  lemma LinuxSpareSlots()
    ensures forall i :: 17 <= i < 32 ==> CcIndex(Linux, LinuxCcLayout[i]) == Some(i)
  {
    var l := LinuxCcLayout;
    forall i | 17 <= i < 32
      ensures CcIndex(Linux, l[i]) == Some(i)
    {
      if i == 17 {} else if i == 18 {} else if i == 19 {} else if i == 20 {} else
      if i == 21 {} else if i == 22 {} else if i == 23 {} else if i == 24 {} else
      if i == 25 {} else if i == 26 {} else if i == 27 {} else if i == 28 {} else
      if i == 29 {} else if i == 30 {} else {}
    }
  }

  lemma DarwinLayoutToIndex()
    ensures |DarwinCcLayout| == 20
    ensures forall i :: 0 <= i < |DarwinCcLayout| ==> CcIndex(Darwin, DarwinCcLayout[i]) == Some(i)
  {
    var l := DarwinCcLayout;
    forall i | 0 <= i < |l|
      ensures CcIndex(Darwin, l[i]) == Some(i)
    {
      if i == 0 {} else if i == 1 {} else if i == 2 {} else if i == 3 {} else
      if i == 4 {} else if i == 5 {} else if i == 6 {} else if i == 7 {} else
      if i == 8 {} else if i == 9 {} else if i == 10 {} else if i == 11 {} else
      if i == 12 {} else if i == 13 {} else if i == 14 {} else if i == 15 {} else
      if i == 16 {} else if i == 17 {} else if i == 18 {} else {}
    }
  }

  /** Every name the platform indexes sits at its index in the layout. */
  lemma IndexToLayout(p: Platform, s: CcSlot)
    requires CcIndex(p, s).Some?
    ensures CcIndex(p, s).value < |CcLayout(p)| && CcLayout(p)[CcIndex(p, s).value] == s
  {
  }

  /** The slot positions that matter for non-canonical reads (section 11.1.7):
      VTIME/VMIN at 5/6 on Linux and VMIN/VTIME at 16/17 on Darwin. */
  lemma ReadTimingSlots()
    ensures CcIndex(Linux, VTIME) == Some(5) && CcIndex(Linux, VMIN) == Some(6)
    ensures CcIndex(Darwin, VMIN) == Some(16) && CcIndex(Darwin, VTIME) == Some(17)
    ensures CcLayout(Linux)[5] == VTIME && CcLayout(Linux)[6] == VMIN
    ensures CcLayout(Darwin)[16] == VMIN && CcLayout(Darwin)[17] == VTIME
  {
  }
}

=== FILE: wrappers.dfy ===
/** Failure-carrying result types shared by the whole model: `Option` for the
    source's optionals, `Result` for a call that returns a value or throws, and
    `Outcome` for a call that returns nothing or throws. */
module Wrappers {

  datatype Option<+T> = None | Some(value: T)

  datatype Result<+R, +E> = Success(value: R) | Failure(error: E)

  datatype Outcome<+E> = Pass | Fail(error: E)
}
